=== FILE: README.md ===
# BSC auto-trading bot core, in Dafny

A model of `app.py`, a Telegram bot for Binance Smart Chain tokens. The bot:

- buys a token whenever an authorized operator sends it a contract address;
- watches the token's price;
- sells at a take-profit or stop-loss level, by sending `/buy` and `/sell` instructions to a separate trading bot and reading that bot's replies.

The core is two dicts of `BSCBot`:

- the **pending-transaction ledger** (`pending_transactions`), keyed `"{type}_{ca}_{int(time)}"`;
- the **position map** (`price_map`), keyed by contract address.

The model also covers the string helpers that drive the dicts: reply classification, contract and transaction-hash extraction, and the operator intake test.

Every handler and every pass of the monitoring loop is modelled as one atomic transition on the two dicts. Whatever the bot learns from outside arrives as an argument:

- the contract validator's verdict;
- DexScreener price samples;
- BscScan balance answers;
- the hash-to-contract lookup;
- the link-entity hash;
- the clock.

Modules, in dependency order:

- `Wrappers`: `Option`.
- `Dict`: Python's insertion-ordered `dict`. Order matters here because failure attribution breaks timestamp ties by it and the tick walks the price map in it.
- `Text`: `str.strip`, substring search, ASCII `lower`.
- `Extract`: the `0x[a-fA-F0-9]{40}` contract search, the string branch of `extract_transaction_hash`, and the operator intake test.
- `Replies`: the reply classifier.
- `Ledger`: pending transactions. Opening, cleanup, confirmation and the failure handler.
- `Positions`: the exit rule, price sampling, balance loops, and position creation, marking and closing.
- `Commands`: the `/buy` and `/sell` instructions.
- `Bot`: the handlers and the monitoring tick, over `State(pending, positions)`. The state machine runs the corrected failure step (`Ledger.Fail`) and the corrected tick step (`Bot.TickPosition`). The behaviour as written is kept alongside (`Ledger.FailAsWritten`, `Bot.TickPositionAsWritten`) and compared in "## Findings".
- `Reconnect`: the reconnect loop of `start`.

Four behaviours of `app.py` that the model keeps:

- Opening a buy or sell entry does not refuse a second live entry for the same contract and kind. Only a same-second key is overwritten (`Bot.DuplicateBuysCoexist`).
- Creating a position overwrites an existing one for the same contract.
- A confirmation removes every matching pending entry, not only the most recent.
- A retry's replacement entry does not carry the exit `reason` of the sell it replaces.

## Model

| member | source | states |
|---|---|---|
| Dict.Get | app.py:746 | a key's value is found exactly when that (key, value) entry is in the dict |
| Dict.Put | app.py:437-445 | `d[k] = v`: afterwards the entries are (k, v) plus the old entries of other keys; a new key goes last and an existing one leaves the length alone |
| Dict.PutInPlace | app.py:462-468 | assigning to an existing key replaces that entry's value at its own index; every other entry keeps its index |
| Dict.PutPresent | app.py:554 | assigning a key the value it already holds leaves the dict as it was |
| Dict.Remove | app.py:370 | `del d[k]`: exactly the entries of other keys remain; deleting a missing key changes nothing |
| Dict.RemoveKeepsOrder | app.py:370 | after `del` the remaining entries keep their relative order |
| Dict.Filter | app.py:364-370 | deleting while iterating over a key snapshot keeps exactly the accepted entries, as an order-preserving subsequence of the dict |
| Dict.PutRemoveCommute | app.py:615-626 | writing one key and deleting a different one give the same dict in either order |
| Text.Strip | app.py:398 | `str.strip`: only whitespace is cut, only from the two ends, and all of it, so a non-empty result has non-space ends |
| Text.StripKeepsWindow | app.py:496 | a stretch that starts and ends with non-whitespace survives `strip` intact, at a shifted position |
| Text.IndexOfFrom | app.py:500-504 | the substring search behind `in` finds the leftmost occurrence, and none means there is no occurrence |
| Text.AsciiLower | app.py:502 | `lower()` restricted to ASCII: the length is kept, 'A'-'Z' become 'a'-'z' and every other character stays. For the phrase tests at lines 502 and 712 this agrees with Python's full `lower()`. The only non-ASCII characters that lower to ASCII letters are U+0130 (to "i" plus a combining dot) and U+212A (to "k"), and neither "successfully bought" nor "successfully sold" contains an 'i' or a 'k' |
| Text.ContainsIgnoresCase | app.py:500-504 | lowering ASCII letters neither creates nor destroys an occurrence of a phrase without ASCII letters |
| Extract.FindContract | app.py:506-509 | the `0x`+40-hex search finds nothing exactly when no such run exists; otherwise it returns the leftmost run, 42 characters |
| Extract.HashHoldsAddress | app.py:506 | every `0x`+64-hex run also matches the 40-digit address pattern at its start |
| Extract.HashPrefixTakenForContract | app.py:506-520 | a reply with a full `0x` hash and no address-shaped run before it yields the hash's first 42 characters as the contract |
| Extract.BscscanLineBranchFrom | app.py:294-296 | the lazy `bscscan.*?(0x…)` search: the first "bscscan" whose line holds a `0x` hash after it, at the first such hash; none only when no "bscscan" has one |
| Extract.TextHashAt | app.py:294-301 | the hash the second and third patterns find: the bscscan-line hash when there is one, else the leftmost `0x` hash; none only when the text has no `0x` hash at all |
| Extract.UrlHashAt | app.py:286-291 | the optional URL group tried after a "bscscan". An answer is an index at or after `i` that holds 64 hex digits. The text from `i` up to it is a `UrlLead`: whitespace, an optional "(", "http" or "https", "://", an optional "www." and "bscscan.com/tx/" |
| Extract.UrlLeadMatched | app.py:286-291 | conversely, a `UrlLead` from `i` to `d` followed by 64 hex digits makes the group capture the digits at `d` |
| Extract.UrlHashAtExact | app.py:286-291 | the group captures digits at `d` exactly when a `UrlLead` runs from `i` to `d` and 64 hex digits follow |
| Extract.UrlBranch | app.py:286-291 | only the first "bscscan" is tried. An answer lies at least 7 characters past its start, with a `UrlLead` in between and 64 hex digits at the answer |
| Extract.UrlBranchExact | app.py:286-291 | the URL pattern yields digits at `d` exactly when the first "bscscan" is followed by a `UrlLead` ending at `d` and 64 hex digits |
| Extract.UrlHashReturned | app.py:285-291 | take any text `a` without "bscscan", whitespace `w`, any of the eight URL spellings `url` and 64 hex digits `h`. The extractor returns exactly `h` for `a + "bscscan" + w + url + h + b`, whatever `b` is |
| Extract.ExtractTransactionHash | app.py:279-303 | the string branch: the 64 URL digits after the first "bscscan" when the URL pattern matches them; otherwise the 66-character `0x` hash at the position the second and third patterns find, or nothing when they find none |
| Extract.ExtractedShape | app.py:285-301 | every result is a bare 64-digit or a `0x`-prefixed hash; a bare one comes only from the URL pattern and a prefixed one only when that pattern found no digits |
| Extract.NothingWithoutHashes | app.py:285-303 | the string branch gives nothing exactly when there is no bscscan URL hash and no `0x` hash anywhere in the text |
| Extract.PrefixedHashOccurs | app.py:294-301 | a `0x` hash the branch returns is a run that occurs in the text |
| Extract.HashOnBscscanLine | app.py:294-296 | with no URL hash, the first `0x` hash on the line after the first "bscscan" is returned, whatever other hashes the text holds |
| Extract.NoBscscanTakesLeftmost | app.py:299-301 | without "bscscan" the result is the leftmost `0x` hash, or nothing |
| Extract.IsIntakeAddress | app.py:401-405 | the intake test checks only the "0x" prefix and the length 42 |
| Extract.FoundContractPassesIntake | app.py:405 | every address the reply search finds would also pass the operator intake test |
| Extract.IntakeIgnoresDigits | app.py:405 | the intake test checks prefix and length only: "0x" and forty 'z's pass it though no address pattern matches |
| Extract.NoAddressMeansNoPrefixedHash | app.py:506-518 | when the address search finds nothing, the hash extractor can only have produced a bare URL hash, so a `0x` hash is never sent to the lookup from the text |
| Replies.Classify | app.py:500-714 | exactly one kind per reply: buy success if its phrases occur; otherwise failure if its phrases occur; otherwise sell success; otherwise unrecognized |
| Replies.MixedSuccessIsBuy | app.py:500-504 | "交易成功" with both "买入" and "卖出" is read as a buy confirmation |
| Replies.FailureOutranksSell | app.py:583 | a reply with "已成功卖出" and "滑点不够" is read as a failure |
| Replies.SlippageIsFailure | app.py:583 | "滑点不够" alone is a failure |
| Replies.EnglishBuyAnyCase | app.py:502 | any text holding "successfully bought" in any letter case, wherever it appears, is read as a buy confirmation |
| Replies.ChineseBuyAnywhere | app.py:500-501 | any text holding "已成功买入" is read as a buy confirmation, whatever else it says |
| Replies.FailurePhraseAnywhere | app.py:583 | a text holding "滑点不够" or "链上交易失败" is read as a failure unless a buy phrase outranks it; never as a sale, never ignored |
| Replies.ClassifyIgnoresCase | app.py:500-714 | two texts that differ only in ASCII letter case are classified alike |
| Ledger.Trunc | app.py:437 | `int()` on a time truncates toward zero: for non-negative times, the whole second at or below |
| Ledger.Open | app.py:437-445 | a fresh entry (retry count 0, configured budget) is filed under the dispatch second; only an entry with the very same key is replaced; entries stay filed under their own key and within budget |
| Ledger.Cleanup | app.py:361-370 | exactly the entries at most 300 s old are kept; entries are otherwise untouched |
| Ledger.CleanupIdempotent | app.py:361-370 | a second cleanup at the same time removes nothing more |
| Ledger.CleanupMonotone | app.py:361-370 | whatever survives a later cleanup survives an earlier one |
| Ledger.CleanupBoundary | app.py:364-369 | an entry exactly 300 s old stays; one half a second older goes |
| Ledger.Confirm | app.py:526-534 | a confirmation removes every entry for that contract and kind, whatever its key, and nothing else |
| Ledger.ConfirmIdempotent | app.py:526-534 | a second confirmation of the same contract and kind removes nothing more |
| Ledger.ConfirmClearsAll | app.py:526-534 | when every pending entry matches the confirmed contract and kind, the ledger ends empty |
| Ledger.Newest | app.py:589-596 | the entry blamed for a failure has the greatest timestamp, and it is the first in dict order among equal timestamps |
| Ledger.Fail | app.py:587-667 | an empty ledger is left alone. Otherwise the newest entry is replaced by its next attempt (same contract, kind, user and budget, retry count + 1, stamped now, no reason) while `retry_count < max_retries - 1`, and dropped otherwise; no other entry changes except one with the replacement's key |
| Ledger.FailAsWritten | app.py:614-626 | the handler's order (store the replacement, then delete the old key) blames the same entry and reaches the same verdict as the corrected one |
| Ledger.FailAgreesOffCollision | app.py:614-626 | unless the retry falls in the same second as the attempt it replaces, the written order and the corrected order give the same ledger |
| Ledger.SameSecondRetryVanishes | app.py:614-626 | a buy sent at 100.2 s that fails at 100.7 s: the written order re-sends but leaves an empty ledger; the corrected order keeps the retry |
| Ledger.SingleAttemptAbandons | app.py:607-660 | with a budget of at most one attempt the first failure abandons the entry |
| Ledger.RetriesStayBelowBudget | app.py:443-444 | starting from retry count 0, a failure never leaves a retry count at or above `max_retries` |
| Positions.Decide | app.py:926-980 | take profit iff the price is truthy and the gain reaches the target; stop loss iff it is truthy, below the target and at or under minus the limit; a missing or zero price never triggers |
| Positions.ExitPriceLevels | app.py:927-980 | for a positive buy price the rule is two price levels: profit at `buy*(1+tp/100)` or above, loss at `buy*(1-sl/100)` or below, profit winning an overlap |
| Positions.TakeProfitMonotone | app.py:931 | a price that takes profit keeps doing so as it rises |
| Positions.ExitExamples | app.py:926-980 | buy 100, target 50 %, limit 20 %: 150 takes profit, 79 stops loss, 120, 0 and no price hold |
| Positions.SampleFrom | app.py:453-460 | the buy price is the first truthy of three samples; none at all when no sample is truthy |
| Positions.SeenFrom | app.py:542-559 | the buy-time balance loop succeeds iff one of its three checks sees the token |
| Positions.HeldFrom | app.py:865-900 | the tick's balance loop ends holding iff all three checks see the token |
| Positions.Track | app.py:462-469 | a new position at the sampled price with the configured limits replaces any for that contract; no other position changes |
| Positions.MarkBalance | app.py:537-555 | a buy confirmation marks the contract's position confirmed iff a wallet is set and one of three checks sees the token; nothing else changes and a mark already set stays |
| Positions.CloseOnSell | app.py:746-830 | a sell confirmation drops the contract's position iff it exists and either no wallet is set or a balance check sees none; no other position changes |
| Positions.MarkBalanceIdempotent | app.py:537-555 | marking a second time gives the same position map as marking once |
| Positions.CloseOnSellIdempotent | app.py:746-830 | closing a second time gives the same position map as closing once |
| Commands.Render | app.py:430 | `/buy {ca} {amount}` starts with "/buy " and is six characters longer than address and amount together; `/sell {ca} 100` (app.py:939, 988, 639) starts with "/sell " and ends with " 100" |
| Commands.ParseRender | app.py:430 | the instruction format is unambiguous for buy addresses without spaces: each such instruction reads back as itself under a reader written for this model (`Commands.Parse`, not part of app.py) |
| Commands.SpacedAddressAmbiguous | app.py:405 | the intake test lets spaces into an address, and then two different buys render to the same text |
| Bot.IsAuthorized | app.py:353-359 | a user is authorized only when `authorized_users` is a list that contains them |
| Bot.UnlistedNeverBuys | app.py:404-408 | a user missing from the list, or anybody when there is no list, causes no change and no instruction |
| Bot.Dispatch | app.py:395-447 | a stripped message leads to a buy iff it is not a command, passes the intake test, comes from a listed user and is validated; then exactly one pending buy is filed and exactly one `/buy` sent, and otherwise nothing changes |
| Bot.RecordBuyPrice | app.py:450-469 | a position at the first truthy price sample is created iff some sample is truthy; the ledger and the other positions are untouched |
| Bot.OperatorMessage | app.py:395-491 | a rejected message changes nothing. An accepted one sends one `/buy` and files one buy entry under the dispatch second. With a truthy price sample it opens a position at the first such sample with the configured limits; with none, positions stay as they were. No other position changes |
| Bot.ResolveContract | app.py:506-523 | an address-shaped run in the reply wins. Otherwise the link-entity hash, when present, takes precedence over the hash extracted from the raw text, and the result is that hash's lookup answer; an empty hash or an empty answer counts as none |
| Bot.HashShadowsLookup | app.py:506-523 | a reply whose stripped text holds a `0x` hash with no address-shaped run before it is attributed to the hash's first 42 characters, whatever the lookup would say |
| Bot.LookupOnlyForUrlHashes | app.py:512-518 | without a link entity, the lookup is consulted only with a bare 64-digit URL hash |
| Bot.ConfirmBuy | app.py:524-555 | a buy confirmation removes exactly the pending buys for the contract; positions change at most by the balance mark |
| Bot.ConfirmSell | app.py:734-830 | a sell confirmation removes exactly the pending sells for the contract; the position goes iff no wallet is set or a check sees no balance, else it is unchanged |
| Bot.Redispatch | app.py:632-639 | a retry re-sends the instruction of the entry's own kind, for its contract, with the configured amount for a buy |
| Bot.Failure | app.py:583-707 | with no pending entry nothing changes. A retry re-sends that entry's own instruction. Abandoning a buy stops monitoring its contract; abandoning a sell keeps it |
| Bot.BotReply | app.py:494-838 | an unrecognized reply, or a confirmation whose contract cannot be resolved, changes nothing. A buy confirmation removes exactly that contract's pending buys. It changes no other position, and in that contract's position only the balance mark. A sell confirmation removes exactly its pending sells and drops the position iff no wallet is set or a check sees no balance; a position it keeps is unchanged. A failure notice applies `Ledger.Fail` to the newest entry, sends only a retry's instruction and drops only an abandoned buy's position |
| Bot.ConfirmationIdempotent | app.py:524-830 | a buy or sell confirmation read a second time changes nothing and sends nothing |
| Bot.ExitStep | app.py:924-1026 | when the exit rule fires, a sell entry with that reason is filed, `/sell` sent and the position dropped; otherwise nothing happens |
| Bot.NoteStillHeld | app.py:903-922 | when all three checks see the token, the owner is told once and `balance_notified` is set for an owner; nothing else changes |
| Bot.NotifiedOnce | app.py:911-920 | noting the updated record again changes nothing: the owner is never told twice |
| Bot.HeldStep | app.py:924-1026 | a position still open after the balance branch is sold with a sell entry carrying the rule's reason when the rule fires, and otherwise kept as the same trade with the ledger unchanged |
| Bot.TickPosition | app.py:848-1026 | a position is sold iff it is not closed for zero balance and its exit rule fires. Then the sell entry (retry count 0, configured budget, the rule's reason) is filed under this second and the position dropped. A position closed for zero balance is dropped with the ledger unchanged. A quiet one is kept as the same trade with the ledger unchanged. No other position changes |
| Bot.TickPositionAsWritten | app.py:876-975 | as written, a position closed for zero balance is still sold when its exit rule fires on the stale data. It sends `/sell` and files a sell entry with the rule's reason, the owner and the configured retry budget, exactly as for a live position |
| Bot.StaleDataSellsClosedPosition | app.py:876-975 | balance checks on, empty wallet, buy 10, price 16: the written step files a sell entry and sends `/sell` for the closed position; the corrected step does neither |
| Bot.TickOver | app.py:848 | a pass over the snapshot, in dict order, keeps the ledger consistent |
| Bot.TickOverSends | app.py:848-1026 | one pass sends `/sell` exactly for the snapshot positions whose exit rule fires |
| Bot.TickOverUntouched | app.py:848 | positions outside the snapshot are not touched by the pass |
| Bot.TickOverKeeps | app.py:848-1026 | every quiet snapshot entry survives the pass as the same trade |
| Bot.TickOverFiles | app.py:942-1002 | after the pass the ledger holds the earlier entries, except one that a firing position's sell entry overwrites, plus exactly one sell entry per firing position, with that position's owner and reason |
| Bot.TickOverSurvivors | app.py:848-1026 | every position left after a pass is outside the snapshot or a quiet snapshot entry recording the same trade |
| Bot.Tick | app.py:841-1028 | the ledger is the cleanup's survivors, less any overwritten by a same-second sell key, plus one sell entry per firing position. `/sell` goes exactly to the positions whose rule fires. Every quiet position is kept and every position kept was quiet, as the same trade. The ledger stays consistent |
| Bot.TickSettles | app.py:841-1028 | with prices and balances unchanged, a second pass sends no instruction |
| Bot.QuietSendsNothing | app.py:926-1026 | a pass over positions that are all quiet sends nothing |
| Bot.DuplicateBuysCoexist | app.py:437-445 | two buys of one contract in different seconds both stay pending |
| Bot.OperatorBuys | app.py:395-469 | an accepted address yields one `/buy`, pending buys only for it, and a position at the first sampled price |
| Bot.BuyReplyResolves | app.py:496-509 | the trading bot's buy reply for an address strips to itself, reads as a buy confirmation and names that address |
| Bot.BuyReplyConfirms | app.py:496-555 | with no wallet, the buy reply clears a ledger of that contract's buys and keeps the positions |
| Bot.BuyThenTakeProfit | app.py:395-1026 | address in, priced at 10, confirmed, price 16 against a 50 % target: the next tick sends `/sell` and drops the position |
| Reconnect.Backoff | app.py:1070 | the n-th wait is at most `2**n` and at most the 30 s cap, and equals one of the two, so it is `min(30, 2**n)` |
| Reconnect.BackoffMonotone | app.py:1070 | waits never shrink, and from the fifth on they sit at the cap |
| Reconnect.BackoffSchedule | app.py:1036-1074 | the five waits are 2, 4, 8, 16 and 30 s |
| Reconnect.Start | app.py:1034-1081 | one wait per network error, with the n-th wait `Backoff(n)`. The bot gives up exactly when five network errors have accumulated and stops at the first other error. Disconnects only reconnect |
| Reconnect.FiveNetworkErrors | app.py:1034-1081 | five network errors (a disconnect in between) give waits 2, 4, 8, 16, 30 and the bot gives up |

## Left out

- Telegram I/O is left out: login, the client, sending and receiving, the trading-bot entity lookup, and every notification to users and log line. Every instruction send is taken to succeed.
- The network clients are arguments: the contract validator, DexScreener prices, the BscScan transaction and balance lookups.
- The URL-entity branch of `extract_transaction_hash` is left out. It reads Telethon message objects, so its result arrives as the argument `urlHash`.
- Configuration loading, `save_transaction` (a JSON file) and logging are left out.
- `asyncio.sleep` and the interleaving of the handlers with the monitoring task are not modelled: each handler or tick is one atomic transition with one clock reading.
    - The operator handler is split into `Bot.Dispatch` (up to the `/buy`) and `Bot.RecordBuyPrice` (after the confirmation delay), so the window between them can be represented.
- Floating-point rounding and the `:.8f`/`:.2f` formatting are left out. Prices and percentages are `real`.
- `needs_balance_check` is not a field. Nothing in `app.py` sets it to True (line 908 only sets it to False), so only `check_balance_only_after_transaction` decides whether the tick checks balances.
- The failure handler's fallback when no entry is pending only notifies a user, so it is modelled as no change.
- The outer `except` of the tick aborts a pass only on faults the atomic model cannot reach, such as a missing key for a snapshot entry. It is not modelled.
- Bot.TickPosition: requires `data` to be the live record of its contract. The snapshot shares the map's dict objects, and within one atomic pass nothing else replaces them.
- Commands.ParseRender: requires the buy address to contain no space. The intake test (app.py:405) accepts "0x" followed by any 40 characters, spaces included, and for such an address the instruction text cannot be read back (`Commands.SpacedAddressAmbiguous`).
- Bot.Tick: every sell entry filed in one pass carries the pass's one clock reading. `app.py` stamps each entry with its own `time.time()` after awaiting that contract's price (app.py:924, 947, 996), so later positions get later timestamps. When two positions fire in one pass and a failure notice follows, the model therefore blames the first firing position in dict order, while `app.py` blames the last.
- Bot.TickSettles: stated as "no instruction is in the second pass's sends", which is the same as an empty list of sends.
- Reconnect.Start: the bot's endless run is cut to the finite list of session endings given; `Running` means the list ran out while the bot was still going.

## Findings

| source | as written | input that shows it | evidently intended | confidence | as-written member | corrected member |
|---|---|---|---|---|---|---|
| app.py:614-626 | a retry stores its replacement under `"{type}_{ca}_{int(time)}"` and then deletes the old entry's key | a buy sent at 100.2 s fails at 100.7 s: both keys are `buy_<ca>_100`, so the delete removes the replacement and the re-sent `/buy` is untracked (`Ledger.SameSecondRetryVanishes`) | delete the old key first, then store the replacement | not executed | Ledger.FailAsWritten | Ledger.Fail |
| app.py:876-975 | after the zero-balance `del self.price_map[ca]` and `break`, the loop body goes on to the price check with the stale `data` | per-tick balance checks on, no balance, buy 10, price 16: a sell entry is filed and `/sell` sent for a position already closed, then the final `del` raises a KeyError caught at line 976 (`Bot.StaleDataSellsClosedPosition`) | stop handling that contract once it is closed for zero balance | not executed | Bot.TickPositionAsWritten | Bot.TickPosition |

=== FILE: bot.dfy ===
/**
 * `BSCBot` (app.py) as a state machine over its two dicts: the operator
 * message handler, the trading-bot reply handler and one pass of the
 * `monitor_price` loop, each an atomic transition. Everything the handlers
 * learn from the outside — the contract validator, price and balance
 * lookups, the hash-to-contract lookup, the clock — arrives as an argument.
 */
module Bot {
  import opened Wrappers
  import opened Dict
  import opened Text
  import opened Extract
  import opened Replies
  import opened Ledger
  import opened Positions
  import opened Commands

  /** The configuration the core reads, with the loader's defaults already filled in. */
  datatype Config = Config(
    buyAmount: string,                    // buy_amount, as it prints
    takeProfit: real,                     // target_gain_percent
    stopLoss: real,                       // stop_loss_percent
    maxRetries: int,                      // max_transaction_retries
    wallet: string,                       // wallet_address; empty turns the balance checks off
    balanceOnlyAfterTx: bool,             // check_balance_only_after_transaction
    authorizedUsers: Option<seq<UserId>>) // authorized_users, when it is a list

  datatype State = State(pending: Ledger, positions: Positions)

  /** A new state and the instructions sent to the trading bot on the way. */
  datatype Step = Step(state: State, sent: seq<Command>)

  ghost predicate Inv(s: State)
  {
    Consistent(s.pending)
  }

  /** Only users on a configured list may buy; without a list nobody may. */
  predicate IsAuthorized(cfg: Config, user: UserId)
  {
    match cfg.authorizedUsers
    case None => false
    case Some(users) => user in users
  }

  /** An operator message that leads to a buy: intake-shaped, from an authorized user, verified. */
  predicate BuyAccepted(cfg: Config, user: UserId, text: string, valid: bool)
  {
    !StartsWith(text, "/") && IsIntakeAddress(text) && IsAuthorized(cfg, user) && valid
  }

  /**
   * The operator handler up to the /buy: commands are ignored, an address
   * from someone not on the list is refused, an address the validator
   * rejects is refused; otherwise a buy entry is opened and /buy sent.
   */
  function Dispatch(s: State, cfg: Config, user: UserId, raw: string, valid: bool, now: real): (r: Step)
    ensures !BuyAccepted(cfg, user, Strip(raw), valid) ==> r == Step(s, [])
    ensures BuyAccepted(cfg, user, Strip(raw), valid) ==>
              && r.sent == [BuyCmd(Strip(raw), cfg.buyAmount)]
              && r.state.positions == s.positions
              && (forall e :: e in r.state.pending <==>
                    (|| e == (KeyAt(Buy, Strip(raw), now), Pending(Strip(raw), Buy, user, now, 0, cfg.maxRetries, None))
                     || (e in s.pending && e.0 != KeyAt(Buy, Strip(raw), now))))
    ensures Inv(s) ==> Inv(r.state)
  {
    var text := Strip(raw);
    if StartsWith(text, "/") then Step(s, [])
    else if !IsIntakeAddress(text) then Step(s, [])
    else if !IsAuthorized(cfg, user) then Step(s, [])
    else if !valid then Step(s, [])
    else Step(s.(pending := Open(s.pending, Buy, text, user, now, cfg.maxRetries, None)), [BuyCmd(text, cfg.buyAmount)])
  }

  /**
   * After the confirmation delay: a position is opened (overwriting any for
   * `ca`) only if one of three price samples is truthy, at the first such.
   */
  function RecordBuyPrice(s: State, cfg: Config, user: UserId, ca: Address,
                          sample: nat -> Option<real>, now: real): (r: State)
    ensures r.pending == s.pending
    ensures forall c :: c != ca ==> Get(r.positions, c) == Get(s.positions, c)
    ensures (forall j :: 0 <= j < PriceAttempts ==> !Truthy(sample(j))) ==> r == s
    ensures (exists j :: 0 <= j < PriceAttempts && Truthy(sample(j))) ==>
              && Get(r.positions, ca).Some?
              && Get(r.positions, ca).value == Position(Get(r.positions, ca).value.buyPrice, now, cfg.takeProfit,
                                                          cfg.stopLoss, user, false, false)
              && exists j :: 0 <= j < PriceAttempts && sample(j) == Some(Get(r.positions, ca).value.buyPrice as real)
                             && forall k :: 0 <= k < j ==> !Truthy(sample(k))
  {
    match SampleFrom(sample, 0)
    case None => s
    case Some(price) => s.(positions := Track(s.positions, ca, price, now, cfg.takeProfit, cfg.stopLoss, user))
  }

  /** The whole operator handler when no other event runs during its sleeps. */
  function OperatorMessage(s: State, cfg: Config, user: UserId, raw: string, valid: bool,
                           sample: nat -> Option<real>, now: real, pricedAt: real): (r: Step)
    ensures !BuyAccepted(cfg, user, Strip(raw), valid) ==> r == Step(s, [])
    ensures BuyAccepted(cfg, user, Strip(raw), valid) ==>
              && r.sent == [BuyCmd(Strip(raw), cfg.buyAmount)]
              && (forall e :: e in r.state.pending <==>
                    (|| e == (KeyAt(Buy, Strip(raw), now), Pending(Strip(raw), Buy, user, now, 0, cfg.maxRetries, None))
                     || (e in s.pending && e.0 != KeyAt(Buy, Strip(raw), now))))
    ensures (forall j :: 0 <= j < PriceAttempts ==> !Truthy(sample(j))) ==> r.state.positions == s.positions
    ensures BuyAccepted(cfg, user, Strip(raw), valid) && (exists j :: 0 <= j < PriceAttempts && Truthy(sample(j))) ==>
              && Get(r.state.positions, Strip(raw)).Some?
              && var pos := Get(r.state.positions, Strip(raw)).value;
                 && pos == Position(pos.buyPrice, pricedAt, cfg.takeProfit, cfg.stopLoss, user, false, false)
                 && exists j :: 0 <= j < PriceAttempts && sample(j) == Some(pos.buyPrice as real)
                                && forall k :: 0 <= k < j ==> !Truthy(sample(k))
    ensures forall c :: c != Strip(raw) ==> Get(r.state.positions, c) == Get(s.positions, c)
    ensures Inv(s) ==> Inv(r.state)
  {
    var d := Dispatch(s, cfg, user, raw, valid, now);
    if d.sent == [] then d
    else Step(RecordBuyPrice(d.state, cfg, user, Strip(raw), sample, pricedAt), d.sent)
  }

  /**
   * The contract a confirmation is about: an address-shaped run in the
   * stripped text, else the hash (from a link entity, else the raw text)
   * resolved by the external lookup; an empty answer counts as none.
   */
  function ResolveContract(text: string, raw: string, urlHash: Option<string>,
                           lookup: string -> Option<string>): (r: Option<Address>)
    ensures FindContract(text).Some? ==> r == FindContract(text)
    ensures r.Some? ==> r.value != ""
    ensures FindContract(text).None? && urlHash.Some? ==>
              if urlHash.value == "" then r.None? else r == NonEmpty(lookup(urlHash.value))
    ensures FindContract(text).None? && urlHash.None? ==>
              match ExtractTransactionHash(raw)
              case None => r.None?
              case Some(h) => h != "" && r == NonEmpty(lookup(h))
  {
    match FindContract(text)
    case Some(ca) => Some(ca)
    case None =>
      var hash := if urlHash.Some? then urlHash else ExtractTransactionHash(raw);
      match hash
      case None => None
      case Some(h) =>
        if h == "" then None
        else match lookup(h)
          case None => None
          case Some(a) => if a == "" then None else Some(a)
  }

  /** A lookup answer, with an empty address counting as none. */
  function NonEmpty(a: Option<Address>): Option<Address>
  {
    if a.Some? && a.value != "" then a else None
  }

  /**
   * A reply whose stripped text holds a `0x` transaction hash with no
   * address-shaped run before it is attributed to the hash's first 42
   * characters, whatever the hash lookup would have said.
   */
  lemma HashShadowsLookup(raw: string, p: nat, urlHash: Option<string>, lookup: string -> Option<string>)
    requires ZeroXHexAt(Strip(raw), p, HashDigits)
    requires forall j :: 0 <= j < p ==> !ZeroXHexAt(Strip(raw), j, AddressDigits)
    ensures ResolveContract(Strip(raw), raw, urlHash, lookup) == Some(Strip(raw)[p..p + 2 + AddressDigits])
  {
    HashPrefixTakenForContract(Strip(raw), p);
  }

  /**
   * Without a link entity, the hash lookup is consulted only for a bare
   * 64-digit hash from a bscscan URL: any `0x` hash in the text would have
   * been taken as the contract first.
   */
  lemma LookupOnlyForUrlHashes(raw: string)
    ensures FindContract(Strip(raw)).None? && ExtractTransactionHash(raw).Some? ==>
              IsBareHash(ExtractTransactionHash(raw).value)
  {
    if FindContract(Strip(raw)).None? {
      NoAddressMeansNoPrefixedHash(raw);
    }
  }

  /**
   * Buy confirmed for `ca`: every pending buy for `ca` goes, nothing else in
   * the ledger changes, and the only change to the positions is the
   * balance-confirmed mark on `ca`'s.
   */
  function ConfirmBuy(s: State, cfg: Config, ca: Address, balance: nat -> bool): (r: State)
    ensures forall e :: e in r.pending <==> e in s.pending && !Matches(e.1, ca, Buy)
    ensures forall c :: c != ca ==> Get(r.positions, c) == Get(s.positions, c)
    ensures Get(r.positions, ca).Some? <==> Get(s.positions, ca).Some?
    ensures Get(s.positions, ca).Some? ==>
              Get(r.positions, ca).value == Get(s.positions, ca).value.(balanceConfirmed :=
                Get(r.positions, ca).value.balanceConfirmed)
    ensures Inv(s) ==> Inv(r)
  {
    State(Confirm(s.pending, ca, Buy), MarkBalance(s.positions, ca, cfg.wallet, balance))
  }

  /**
   * Sell confirmed for `ca`: every pending sell for `ca` goes; `ca`'s
   * position is dropped unless a wallet is configured and all three balance
   * checks still see the token.
   */
  function ConfirmSell(s: State, cfg: Config, ca: Address, balance: nat -> bool): (r: State)
    ensures forall e :: e in r.pending <==> e in s.pending && !Matches(e.1, ca, Sell)
    ensures forall c :: c != ca ==> Get(r.positions, c) == Get(s.positions, c)
    ensures Get(r.positions, ca).None? <==>
              Get(s.positions, ca).None? || cfg.wallet == "" || exists j :: 0 <= j < BalanceAttempts && !balance(j)
    ensures Get(r.positions, ca).Some? ==> Get(r.positions, ca) == Get(s.positions, ca)
    ensures Inv(s) ==> Inv(r)
  {
    State(Confirm(s.pending, ca, Sell), CloseOnSell(s.positions, ca, cfg.wallet, balance))
  }

  /** The instruction a retry sends again. */
  function Redispatch(p: Pending, cfg: Config): (r: Command)
    ensures r.ca == p.ca
    ensures r.BuyCmd? <==> p.kind == Buy
    ensures r.BuyCmd? ==> r.amount == cfg.buyAmount
  {
    match p.kind
    case Buy => BuyCmd(p.ca, cfg.buyAmount)
    case Sell => SellCmd(p.ca)
  }

  /**
   * A failure notice: nothing happens without pending entries; otherwise the
   * newest entry is retried (and its instruction re-sent) or abandoned, and
   * abandoning a buy stops monitoring its contract.
   */
  function Failure(s: State, cfg: Config, now: real): (r: Step)
    ensures |s.pending| == 0 ==> r == Step(s, [])
    ensures Fail(s.pending, now).outcome.Retried? ==>
              && r.state == s.(pending := Fail(s.pending, now).ledger)
              && r.sent == [Redispatch(Fail(s.pending, now).outcome.next, cfg)]
    ensures Fail(s.pending, now).outcome.Abandoned? ==>
              var p := Fail(s.pending, now).outcome.entry;
              && r.state.pending == Fail(s.pending, now).ledger
              && r.sent == []
              && (forall c :: c != p.ca ==> Get(r.state.positions, c) == Get(s.positions, c))
              && Get(r.state.positions, p.ca) == (if p.kind == Buy then None else Get(s.positions, p.ca))
    ensures Inv(s) ==> Inv(r.state)
  {
    var f := Fail(s.pending, now);
    match f.outcome
    case NothingPending => Step(s, [])
    case Retried(_, next) => Step(s.(pending := f.ledger), [Redispatch(next, cfg)])
    case Abandoned(_, p) =>
      Step(State(f.ledger, if p.kind == Buy then Remove(s.positions, p.ca) else s.positions), [])
  }

  /** The reply handler: classify the stripped text and act on the kind. */
  function BotReply(s: State, cfg: Config, raw: string, urlHash: Option<string>,
                    lookup: string -> Option<string>, balance: nat -> bool, now: real): (r: Step)
    ensures Classify(Strip(raw)) == Unrecognized ==> r == Step(s, [])
    ensures Classify(Strip(raw)) != TradeFailed ==> r.sent == []
    ensures Classify(Strip(raw)) != TradeFailed ==> forall e :: e in r.state.pending ==> e in s.pending
    ensures (Classify(Strip(raw)) in {BuyConfirmed, SellConfirmed}
             && ResolveContract(Strip(raw), raw, urlHash, lookup).None?) ==> r == Step(s, [])
    ensures Classify(Strip(raw)) == BuyConfirmed && ResolveContract(Strip(raw), raw, urlHash, lookup).Some? ==>
              var ca := ResolveContract(Strip(raw), raw, urlHash, lookup).value;
              && (forall e :: e in r.state.pending <==> e in s.pending && !Matches(e.1, ca, Buy))
              && (forall c :: c != ca ==> Get(r.state.positions, c) == Get(s.positions, c))
              && (Get(r.state.positions, ca).Some? <==> Get(s.positions, ca).Some?)
              && (Get(s.positions, ca).Some? ==>
                    Get(r.state.positions, ca).value.balanceConfirmed ==
                      (Get(s.positions, ca).value.balanceConfirmed || (cfg.wallet != "" && exists j :: 0 <= j < BalanceAttempts && balance(j))))
              && (Get(s.positions, ca).Some? ==>
                    Get(r.state.positions, ca).value ==
                      Get(s.positions, ca).value.(balanceConfirmed := Get(r.state.positions, ca).value.balanceConfirmed))
    ensures Classify(Strip(raw)) == SellConfirmed && ResolveContract(Strip(raw), raw, urlHash, lookup).Some? ==>
              var ca := ResolveContract(Strip(raw), raw, urlHash, lookup).value;
              && (forall e :: e in r.state.pending <==> e in s.pending && !Matches(e.1, ca, Sell))
              && (forall c :: c != ca ==> Get(r.state.positions, c) == Get(s.positions, c))
              && (Get(r.state.positions, ca).None? <==>
                    Get(s.positions, ca).None? || cfg.wallet == "" || exists j :: 0 <= j < BalanceAttempts && !balance(j))
              && (Get(r.state.positions, ca).Some? ==> Get(r.state.positions, ca) == Get(s.positions, ca))
    ensures Classify(Strip(raw)) == TradeFailed ==>
              && r.state.pending == Fail(s.pending, now).ledger
              && (r.sent != [] <==> Fail(s.pending, now).outcome.Retried?)
              && (Fail(s.pending, now).outcome.Retried? ==>
                    r.sent == [Redispatch(Fail(s.pending, now).outcome.next, cfg)])
              && (forall c :: Get(r.state.positions, c) != Get(s.positions, c) ==>
                    && Fail(s.pending, now).outcome.Abandoned?
                    && Matches(Fail(s.pending, now).outcome.entry, c, Buy)
                    && Get(r.state.positions, c).None?)
    ensures Inv(s) ==> Inv(r.state)
  {
    var text := Strip(raw);
    match Classify(text)
    case BuyConfirmed =>
      (match ResolveContract(text, raw, urlHash, lookup)
       case None => Step(s, [])
       case Some(ca) => Step(ConfirmBuy(s, cfg, ca, balance), []))
    case TradeFailed => Failure(s, cfg, now)
    case SellConfirmed =>
      (match ResolveContract(text, raw, urlHash, lookup)
       case None => Step(s, [])
       case Some(ca) => Step(ConfirmSell(s, cfg, ca, balance), []))
    case Unrecognized => Step(s, [])
  }

  /**
   * A confirmation read a second time changes nothing: its entries are
   * already gone and its mark or close already applied. A failure notice is
   * not like this, since each one retries or abandons another attempt.
   */
  lemma ConfirmationIdempotent(s: State, cfg: Config, raw: string, urlHash: Option<string>,
                               lookup: string -> Option<string>, balance: nat -> bool, now: real)
    ensures Classify(Strip(raw)) != TradeFailed ==>
              var once := BotReply(s, cfg, raw, urlHash, lookup, balance, now).state;
              BotReply(once, cfg, raw, urlHash, lookup, balance, now) == Step(once, [])
  {
    match ResolveContract(Strip(raw), raw, urlHash, lookup)
    case None =>
    case Some(ca) =>
      ConfirmIdempotent(s.pending, ca, Buy);
      ConfirmIdempotent(s.pending, ca, Sell);
      MarkBalanceIdempotent(s.positions, ca, cfg.wallet, balance);
      CloseOnSellIdempotent(s.positions, ca, cfg.wallet, balance);
  }

  // ---- the monitoring tick ----

  /**
   * The tick's balance branch runs when a wallet is set and
   * `needs_balance_check or not check_balance_only_after_transaction`; since
   * nothing ever sets `needs_balance_check`, only the setting decides.
   */
  predicate ChecksEveryTick(cfg: Config)
  {
    cfg.wallet != "" && !cfg.balanceOnlyAfterTx
  }

  /** The balance branch closes the position when one of three checks sees no balance. */
  predicate ClosedForBalance(cfg: Config, balance: nat -> bool)
  {
    ChecksEveryTick(cfg) && exists j :: 0 <= j < BalanceAttempts && !balance(j)
  }

  /** The exit rule applied: on a decision, a sell entry with its reason is opened, /sell sent, the position dropped. */
  function ExitStep(s: State, cfg: Config, ca: Address, data: Position, now: real, price: Option<real>): (r: Step)
    ensures Decide(data, price).None? ==> r == Step(s, [])
    ensures Decide(data, price).Some? ==>
              && r.sent == [SellCmd(ca)]
              && r.state.pending == Open(s.pending, Sell, ca, data.user, now, cfg.maxRetries, Decide(data, price))
              && r.state.positions == Remove(s.positions, ca)
  {
    match Decide(data, price)
    case None => Step(s, [])
    case Some(reason) =>
      Step(State(Open(s.pending, Sell, ca, data.user, now, cfg.maxRetries, Some(reason)), Remove(s.positions, ca)), [])
      .(sent := [SellCmd(ca)])
  }

  /** All three checks still see the token: the owner is told once, and `balance_notified` records it. */
  function NoteStillHeld(m: Positions, ca: Address, data: Position): (r: Positions)
    ensures forall c :: c != ca ==> Get(r, c) == Get(m, c)
    ensures Get(m, ca) == Some(data) ==>
              Get(r, ca) == Some(data.(balanceNotified := data.balanceNotified || data.user != 0))
    ensures Get(m, ca) == Some(data) ==>
              forall e :: e in r ==> (e in m && e.0 != ca) || (e.0 == ca && SameTrade(e.1, data))
  {
    if !data.balanceNotified && data.user != 0 then Put(m, ca, data.(balanceNotified := true)) else m
  }

  /** The owner is told at most once: noting the updated record again changes nothing. */
  lemma NotifiedOnce(m: Positions, ca: Address, data: Position)
    requires Get(m, ca) == Some(data)
    ensures var m1 := NoteStillHeld(m, ca, data);
            NoteStillHeld(m1, ca, Get(m1, ca).value) == m1
  {
    var m1 := NoteStillHeld(m, ca, data);
    if data.user != 0 {
      PutPresent(m1, ca, Get(m1, ca).value);
    }
  }

  /** Two records of the same trade, up to the notification and confirmation marks. */
  predicate SameTrade(p: Position, q: Position)
  {
    p.buyPrice == q.buyPrice && p.takeProfit == q.takeProfit && p.stopLoss == q.stopLoss && p.user == q.user
  }

  /**
   * One position in the tick. `data` is the live record of `ca` (the
   * snapshot holds references to the map's own dicts). A position closed
   * for zero balance goes no further.
   */
  function TickPosition(s: State, cfg: Config, ca: Address, data: Position, now: real,
                        price: Option<real>, balance: nat -> bool): (r: Step)
    requires Get(s.positions, ca) == Some(data)
    ensures r.sent == [] || r.sent == [SellCmd(ca)]
    ensures r.sent == [SellCmd(ca)] <==> !ClosedForBalance(cfg, balance) && Decide(data, price).Some?
    ensures ClosedForBalance(cfg, balance) ==>
              r.state.pending == s.pending && Get(r.state.positions, ca).None?
    ensures !ClosedForBalance(cfg, balance) && Decide(data, price).Some? ==>
              && r.state.pending == Open(s.pending, Sell, ca, data.user, now, cfg.maxRetries, Decide(data, price))
              && Get(r.state.positions, ca).None?
    ensures !ClosedForBalance(cfg, balance) && Decide(data, price).None? ==>
              && r.state.pending == s.pending
              && Get(r.state.positions, ca).Some?
              && SameTrade(Get(r.state.positions, ca).value, data)
    ensures forall c :: c != ca ==> Get(r.state.positions, c) == Get(s.positions, c)
    ensures forall e :: e in r.state.positions ==>
              || (e in s.positions && e.0 != ca)
              || (e.0 == ca && !ClosedForBalance(cfg, balance) && Decide(data, price).None? && SameTrade(e.1, data))
    ensures Inv(s) ==> Inv(r.state)
  {
    if ChecksEveryTick(cfg) && !HeldFrom(balance, 0) then
      Step(s.(positions := Remove(s.positions, ca)), [])
    else
      HeldStep(s, cfg, ca, data, ChecksEveryTick(cfg), now, price)
  }

  /**
   * A position still open after the balance branch: noted as still held if
   * the branch ran, then put to the exit rule.
   */
  function HeldStep(s: State, cfg: Config, ca: Address, data: Position, checked: bool, now: real,
                    price: Option<real>): (r: Step)
    requires Get(s.positions, ca) == Some(data)
    ensures Decide(data, price).Some? ==>
              && r.sent == [SellCmd(ca)]
              && r.state.pending == Open(s.pending, Sell, ca, data.user, now, cfg.maxRetries, Decide(data, price))
              && Get(r.state.positions, ca).None?
    ensures Decide(data, price).None? ==>
              && r.sent == []
              && r.state.pending == s.pending
              && Get(r.state.positions, ca).Some?
              && SameTrade(Get(r.state.positions, ca).value, data)
    ensures forall c :: c != ca ==> Get(r.state.positions, c) == Get(s.positions, c)
    ensures forall e :: e in r.state.positions ==>
              || (e in s.positions && e.0 != ca)
              || (e.0 == ca && Decide(data, price).None? && SameTrade(e.1, data))
  {
    var s1 := if checked then s.(positions := NoteStillHeld(s.positions, ca, data)) else s;
    assert forall e :: e in s.positions ==> (e in s.positions && e.0 != ca) || (e.0 == ca && SameTrade(e.1, data));
    ExitStep(s1, cfg, ca, data, now, price)
  }

  /**
   * The same step as app.py writes it: after the zero-balance `del` the loop
   * goes on to the price check with the stale `data`, and the sell path's
   * own `del` then fails with a KeyError that its `except` swallows, after
   * the sell entry has been stored and /sell sent.
   */
  function TickPositionAsWritten(s: State, cfg: Config, ca: Address, data: Position, now: real,
                                 price: Option<real>, balance: nat -> bool): (r: Step)
    requires Get(s.positions, ca) == Some(data)
    ensures !ClosedForBalance(cfg, balance) ==> r == TickPosition(s, cfg, ca, data, now, price, balance)
    ensures ClosedForBalance(cfg, balance) ==>
              && Get(r.state.positions, ca).None?
              && (r.sent == [SellCmd(ca)] <==> Decide(data, price).Some?)
              && (Decide(data, price).Some? ==>
                    r.state.pending == Open(s.pending, Sell, ca, data.user, now, cfg.maxRetries, Decide(data, price)))
  {
    if ChecksEveryTick(cfg) && !HeldFrom(balance, 0) then
      ExitStep(s.(positions := Remove(s.positions, ca)), cfg, ca, data, now, price)
    else
      HeldStep(s, cfg, ca, data, ChecksEveryTick(cfg), now, price)
  }

  /**
   * The stale-data sell: with per-tick balance checks on, a wallet that
   * holds nothing and a price at the target, app.py closes the position for
   * zero balance and then still files a sell entry and sends /sell; the
   * corrected step sends nothing and files nothing.
   */
  lemma StaleDataSellsClosedPosition(ca: Address, user: UserId)
    ensures var cfg := Config("1", 50.0, 20.0, 3, "0xwallet", false, None);
            var pos := Position(10.0, 0.0, 50.0, 20.0, user, false, false);
            var s := State([], [(ca, pos)]);
            var noBalance := (j: nat) => false;
            && TickPositionAsWritten(s, cfg, ca, pos, 60.0, Some(16.0), noBalance).sent == [SellCmd(ca)]
            && |TickPositionAsWritten(s, cfg, ca, pos, 60.0, Some(16.0), noBalance).state.pending| == 1
            && TickPosition(s, cfg, ca, pos, 60.0, Some(16.0), noBalance) == Step(State([], []), [])
  {
    var cfg := Config("1", 50.0, 20.0, 3, "0xwallet", false, None);
    var noBalance := (j: nat) => false;
    assert !noBalance(0);
    assert ClosedForBalance(cfg, noBalance);
  }

  /** Whoever is not on a configured list, and everybody when there is no list, buys nothing. */
  lemma UnlistedNeverBuys(s: State, cfg: Config, user: UserId, raw: string, valid: bool,
                          sample: nat -> Option<real>, now: real, pricedAt: real)
    ensures cfg.authorizedUsers.None? || user !in cfg.authorizedUsers.value ==>
              OperatorMessage(s, cfg, user, raw, valid, sample, now, pricedAt) == Step(s, [])
  {
  }

  /** The balance answers for one contract. */
  function BalanceOf(balance: (Address, nat) -> bool, ca: Address): nat -> bool
  {
    (j: nat) => balance(ca, j)
  }

  /** A snapshot entry the tick sells: not closed for zero balance, and the exit rule fires. */
  predicate Fires(cfg: Config, e: (Address, Position), price: Address -> Option<real>,
                  balance: (Address, nat) -> bool)
  {
    !ClosedForBalance(cfg, BalanceOf(balance, e.0)) && Decide(e.1, price(e.0)).Some?
  }

  /** A snapshot entry the tick keeps: not closed for zero balance, and the exit rule holds. */
  predicate Quiet(cfg: Config, e: (Address, Position), price: Address -> Option<real>,
                  balance: (Address, nat) -> bool)
  {
    !ClosedForBalance(cfg, BalanceOf(balance, e.0)) && Decide(e.1, price(e.0)).None?
  }

  /** `ca` is in the snapshot and its exit rule fires in this pass. */
  predicate FiredIn(cfg: Config, snapshot: Positions, ca: Address, price: Address -> Option<real>,
                    balance: (Address, nat) -> bool)
  {
    Get(snapshot, ca).Some? && Fires(cfg, (ca, Get(snapshot, ca).value), price, balance)
  }

  /** The sell entry a firing position files: retry count 0, the configured budget, the rule's reason. */
  function SellEntry(cfg: Config, ca: Address, data: Position, now: real, price: Option<real>): (TxId, Pending)
  {
    (KeyAt(Sell, ca, now), Pending(ca, Sell, data.user, now, 0, cfg.maxRetries, Decide(data, price)))
  }

  /** A pass over the snapshot `list(self.price_map.items())`, in dict order. */
  function TickOver(s: State, cfg: Config, snapshot: Positions, now: real,
                    price: Address -> Option<real>, balance: (Address, nat) -> bool): (r: Step)
    requires forall e :: e in snapshot ==> e in s.positions
    ensures Inv(s) ==> Inv(r.state)
    decreases |snapshot|
  {
    if snapshot == [] then Step(s, [])
    else
      var first := TickPosition(s, cfg, snapshot[0].0, snapshot[0].1, now, price(snapshot[0].0),
                                BalanceOf(balance, snapshot[0].0));
      TailStillLive(s, first.state, snapshot);
      var rest := TickOver(first.state, cfg, snapshot[1..], now, price, balance);
      Step(rest.state, first.sent + rest.sent)
  }

  /** The rest of the snapshot is still live after the first entry's step, which touched only its own key. */
  lemma TailStillLive(s: State, s1: State, snapshot: Positions)
    requires snapshot != []
    requires forall e :: e in snapshot ==> e in s.positions
    requires forall c :: c != snapshot[0].0 ==> Get(s1.positions, c) == Get(s.positions, c)
    ensures forall e :: e in snapshot[1..] ==> e in s1.positions
  {
    forall e | e in snapshot[1..] ensures e in s1.positions {
      assert e.0 != snapshot[0].0;
      assert Get(s.positions, e.0) == Some(e.1);
    }
  }

  /** The pass sends /sell exactly for the snapshot entries whose exit rule fires. */
  lemma {:induction false} TickOverSends(s: State, cfg: Config, snapshot: Positions, now: real,
                                         price: Address -> Option<real>, balance: (Address, nat) -> bool)
    requires forall e :: e in snapshot ==> e in s.positions
    ensures forall c :: c in TickOver(s, cfg, snapshot, now, price, balance).sent <==>
              c.SellCmd? && FiredIn(cfg, snapshot, c.ca, price, balance)
    decreases |snapshot|
  {
    if snapshot != [] {
      var ca := snapshot[0].0;
      var first := TickPosition(s, cfg, ca, snapshot[0].1, now, price(ca), BalanceOf(balance, ca));
      var tail: Positions := snapshot[1..];
      TailStillLive(s, first.state, snapshot);
      TickOverSends(first.state, cfg, tail, now, price, balance);
      SnapshotSplit(snapshot);
      assert FiredIn(cfg, snapshot, ca, price, balance) == Fires(cfg, snapshot[0], price, balance);
      assert !FiredIn(cfg, tail, ca, price, balance);
      forall c | c != ca ensures FiredIn(cfg, snapshot, c, price, balance) == FiredIn(cfg, tail, c, price, balance) {
      }
    }
  }

  /** What survives the pass is outside the snapshot, or a quiet snapshot entry still recording the same trade. */
  lemma {:induction false} TickOverSurvivors(s: State, cfg: Config, snapshot: Positions, now: real,
                                             price: Address -> Option<real>, balance: (Address, nat) -> bool)
    requires forall e :: e in snapshot ==> e in s.positions
    ensures forall e :: e in TickOver(s, cfg, snapshot, now, price, balance).state.positions ==>
              || (e in s.positions && Get(snapshot, e.0).None?)
              || (&& Get(snapshot, e.0).Some?
                  && Quiet(cfg, (e.0, Get(snapshot, e.0).value), price, balance)
                  && SameTrade(e.1, Get(snapshot, e.0).value))
    decreases |snapshot|
  {
    if snapshot != [] {
      var ca := snapshot[0].0;
      var first := TickPosition(s, cfg, ca, snapshot[0].1, now, price(ca), BalanceOf(balance, ca));
      var tail: Positions := snapshot[1..];
      TailStillLive(s, first.state, snapshot);
      TickOverSurvivors(first.state, cfg, tail, now, price, balance);
      assert Get(tail, ca).None?;
    }
  }

  /** The first entry of a snapshot is its only entry for that contract; the rest answers for every other one. */
  lemma SnapshotSplit(snapshot: Positions)
    requires snapshot != []
    ensures Get(snapshot, snapshot[0].0) == Some(snapshot[0].1)
    ensures Get(snapshot[1..], snapshot[0].0).None?
    ensures forall c :: c != snapshot[0].0 ==> Get(snapshot, c) == Get(snapshot[1..], c)
  {
  }

  /** Positions outside the snapshot are not touched by the pass. */
  lemma {:induction false} TickOverUntouched(s: State, cfg: Config, snapshot: Positions, now: real,
                                             price: Address -> Option<real>, balance: (Address, nat) -> bool)
    requires forall e :: e in snapshot ==> e in s.positions
    ensures forall c :: Get(snapshot, c).None? ==>
              Get(TickOver(s, cfg, snapshot, now, price, balance).state.positions, c) == Get(s.positions, c)
    decreases |snapshot|
  {
    if snapshot != [] {
      var ca := snapshot[0].0;
      var first := TickPosition(s, cfg, ca, snapshot[0].1, now, price(ca), BalanceOf(balance, ca));
      var tail: Positions := snapshot[1..];
      TailStillLive(s, first.state, snapshot);
      TickOverUntouched(first.state, cfg, tail, now, price, balance);
      SnapshotSplit(snapshot);
    }
  }

  /** Every quiet snapshot entry survives the pass, still recording the same trade. */
  lemma {:induction false} TickOverKeeps(s: State, cfg: Config, snapshot: Positions, now: real,
                                         price: Address -> Option<real>, balance: (Address, nat) -> bool)
    requires forall e :: e in snapshot ==> e in s.positions
    ensures forall c :: Get(snapshot, c).Some? && Quiet(cfg, (c, Get(snapshot, c).value), price, balance) ==>
              var kept := Get(TickOver(s, cfg, snapshot, now, price, balance).state.positions, c);
              kept.Some? && SameTrade(kept.value, Get(snapshot, c).value)
    decreases |snapshot|
  {
    if snapshot != [] {
      var ca := snapshot[0].0;
      var first := TickPosition(s, cfg, ca, snapshot[0].1, now, price(ca), BalanceOf(balance, ca));
      var tail: Positions := snapshot[1..];
      TailStillLive(s, first.state, snapshot);
      TickOverKeeps(first.state, cfg, tail, now, price, balance);
      TickOverUntouched(first.state, cfg, tail, now, price, balance);
      SnapshotSplit(snapshot);
    }
  }

  /** The ledger after one position's step, in the shape of the whole pass. */
  lemma FirstFiles(s: State, cfg: Config, snapshot: Positions, now: real,
                   price: Address -> Option<real>, balance: (Address, nat) -> bool)
    requires snapshot != [] && snapshot[0] in s.positions
    ensures var ca := snapshot[0].0;
            var first := TickPosition(s, cfg, ca, snapshot[0].1, now, price(ca), BalanceOf(balance, ca));
            forall e :: e in first.state.pending <==>
              || (e in s.pending && !(Fires(cfg, snapshot[0], price, balance) && e.0 == KeyAt(Sell, ca, now)))
              || (Fires(cfg, snapshot[0], price, balance) && e == SellEntry(cfg, ca, snapshot[0].1, now, price(ca)))
  {
  }

  /**
   * The ledger after the pass: every earlier entry except one a firing
   * position's sell entry overwrites (same kind, contract and second), plus
   * one sell entry per firing position.
   */
  lemma {:induction false} TickOverFiles(s: State, cfg: Config, snapshot: Positions, now: real,
                                         price: Address -> Option<real>, balance: (Address, nat) -> bool)
    requires forall e :: e in snapshot ==> e in s.positions
    ensures forall e :: e in TickOver(s, cfg, snapshot, now, price, balance).state.pending <==>
              || (e in s.pending && !(FiredIn(cfg, snapshot, e.0.ca, price, balance) && e.0 == KeyAt(Sell, e.0.ca, now)))
              || (&& FiredIn(cfg, snapshot, e.1.ca, price, balance)
                  && e == SellEntry(cfg, e.1.ca, Get(snapshot, e.1.ca).value, now, price(e.1.ca)))
    decreases |snapshot|
  {
    if snapshot != [] {
      var ca := snapshot[0].0;
      var first := TickPosition(s, cfg, ca, snapshot[0].1, now, price(ca), BalanceOf(balance, ca));
      var tail: Positions := snapshot[1..];
      TailStillLive(s, first.state, snapshot);
      TickOverFiles(first.state, cfg, tail, now, price, balance);
      FirstFiles(s, cfg, snapshot, now, price, balance);
      SnapshotSplit(snapshot);
      var fired := Fires(cfg, snapshot[0], price, balance);
      assert FiredIn(cfg, snapshot, ca, price, balance) == fired;
      assert !FiredIn(cfg, tail, ca, price, balance);
      forall c | c != ca ensures FiredIn(cfg, snapshot, c, price, balance) == FiredIn(cfg, tail, c, price, balance) {
      }
    }
  }

  /**
   * One pass of `monitor_price`: expire stale ledger entries, then visit
   * every position. It sends /sell exactly for the positions whose exit rule
   * fires, and every position it keeps was quiet.
   */
  function Tick(s: State, cfg: Config, now: real, price: Address -> Option<real>,
                balance: (Address, nat) -> bool): (r: Step)
    ensures Inv(s) ==> Inv(r.state)
    ensures forall c :: c in r.sent <==>
              c.SellCmd? && FiredIn(cfg, s.positions, c.ca, price, balance)
    ensures forall e :: e in r.state.positions ==>
              && Get(s.positions, e.0).Some?
              && Quiet(cfg, (e.0, Get(s.positions, e.0).value), price, balance)
              && SameTrade(e.1, Get(s.positions, e.0).value)
    ensures forall c :: Get(s.positions, c).Some? && Quiet(cfg, (c, Get(s.positions, c).value), price, balance) ==>
              Get(r.state.positions, c).Some? && SameTrade(Get(r.state.positions, c).value, Get(s.positions, c).value)
    ensures forall e :: e in r.state.pending <==>
              || (&& e in s.pending && now - e.1.timestamp <= ExpiryWindow
                  && !(FiredIn(cfg, s.positions, e.0.ca, price, balance) && e.0 == KeyAt(Sell, e.0.ca, now)))
              || (&& FiredIn(cfg, s.positions, e.1.ca, price, balance)
                  && e == SellEntry(cfg, e.1.ca, Get(s.positions, e.1.ca).value, now, price(e.1.ca)))
  {
    var s0 := s.(pending := Cleanup(s.pending, now));
    TickOverSends(s0, cfg, s.positions, now, price, balance);
    TickOverSurvivors(s0, cfg, s.positions, now, price, balance);
    TickOverKeeps(s0, cfg, s.positions, now, price, balance);
    TickOverFiles(s0, cfg, s.positions, now, price, balance);
    TickOver(s0, cfg, s.positions, now, price, balance)
  }

  /**
   * With prices and balances unchanged, a second pass sends nothing: every
   * position that fired was dropped by the first, and every one kept is quiet.
   */
  lemma TickSettles(s: State, cfg: Config, now: real, later: real, price: Address -> Option<real>,
                    balance: (Address, nat) -> bool)
    ensures forall c :: c !in Tick(Tick(s, cfg, now, price, balance).state, cfg, later, price, balance).sent
  {
    var s1 := Tick(s, cfg, now, price, balance).state;
    forall e | e in s1.positions ensures Quiet(cfg, e, price, balance) {
      SameTradeSameDecision(e.1, Get(s.positions, e.0).value, price(e.0));
    }
    QuietSendsNothing(s1, cfg, later, price, balance);
  }

  /** The exit rule reads only the fields two records of the same trade share. */
  lemma SameTradeSameDecision(p: Position, q: Position, price: Option<real>)
    requires SameTrade(p, q)
    ensures Decide(p, price) == Decide(q, price)
  {
  }

  /** A pass over positions that are all quiet sends nothing. */
  lemma QuietSendsNothing(s: State, cfg: Config, now: real, price: Address -> Option<real>,
                          balance: (Address, nat) -> bool)
    requires forall e :: e in s.positions ==> Quiet(cfg, e, price, balance)
    ensures forall c :: c !in Tick(s, cfg, now, price, balance).sent
  {
    var sent := Tick(s, cfg, now, price, balance).sent;
    forall c ensures c !in sent {
      if c.SellCmd? && Get(s.positions, c.ca).Some? {
        assert (c.ca, Get(s.positions, c.ca).value) in s.positions;
      }
    }
  }

  // ---- scenarios ----

  /**
   * The ledger does not refuse a second buy of a contract that already has
   * one pending: sent in different seconds, both entries stay.
   */
  lemma DuplicateBuysCoexist(s: State, cfg: Config, user: UserId, ca: Address, t1: real, t2: real)
    requires Strip(ca) == ca && IsIntakeAddress(ca) && IsAuthorized(cfg, user)
    requires Trunc(t1) != Trunc(t2)
    ensures var once := Dispatch(s, cfg, user, ca, true, t1);
            var twice := Dispatch(once.state, cfg, user, ca, true, t2);
            && (KeyAt(Buy, ca, t1), Pending(ca, Buy, user, t1, 0, cfg.maxRetries, None)) in twice.state.pending
            && (KeyAt(Buy, ca, t2), Pending(ca, Buy, user, t2, 0, cfg.maxRetries, None)) in twice.state.pending
            && twice.sent == [BuyCmd(ca, cfg.buyAmount)]
  {
    assert ca[0] == '0';
  }

  /** A whole-string window: `strip` leaves a string with non-space ends as it is. */
  lemma StripIntact(s: string)
    requires |s| > 0 && !IsSpace(s[0]) && !IsSpace(s[|s| - 1])
    ensures Strip(s) == s
  {
    StripKeepsWindow(s, 0, |s|);
    assert s[0..|s|] == s;
  }

  /** The operator's address, accepted, gives a single pending buy and a position at the first sampled price. */
  lemma OperatorBuys(ca: Address, user: UserId, cfg: Config, sample: nat -> Option<real>, t0: real, t1: real)
    requires ZeroXHexAt(ca, 0, AddressDigits) && |ca| == 2 + AddressDigits
    requires IsAuthorized(cfg, user) && Truthy(sample(0))
    ensures var bought := OperatorMessage(State([], []), cfg, user, ca, true, sample, t0, t1);
            && bought.sent == [BuyCmd(ca, cfg.buyAmount)]
            && (forall e :: e in bought.state.pending ==> Matches(e.1, ca, Buy))
            && Get(bought.state.positions, ca)
               == Some(Position(sample(0).value, t1, cfg.takeProfit, cfg.stopLoss, user, false, false))
  {
    StripIntact(ca);
    assert IsIntakeAddress(ca);
    assert BuyAccepted(cfg, user, ca, true);
  }

  /** The reply the trading bot sends for a completed buy names the contract and is read as a buy confirmation of it. */
  lemma BuyReplyResolves(ca: Address)
    requires ZeroXHexAt(ca, 0, AddressDigits) && |ca| == 2 + AddressDigits
    ensures Strip("已成功买入 " + ca) == "已成功买入 " + ca
    ensures Classify("已成功买入 " + ca) == BuyConfirmed
    ensures FindContract("已成功买入 " + ca) == Some(ca)
  {
    var reply := "已成功买入 " + ca;
    assert !IsSpace(reply[0]) && reply[|reply| - 1] == ca[|ca| - 1];
    StripIntact(reply);
    assert OccursAt(reply, "已成功买入", 0);
    ContainsAt(reply, "已成功买入", 0);
    assert ZeroXHexAt(reply, 6, AddressDigits);
    forall j | 0 <= j < 6 ensures !ZeroXHexAt(reply, j, AddressDigits) {
      assert reply[j] != '0';
    }
    assert reply[6..6 + 2 + AddressDigits] == ca;
  }

  /** With no wallet configured, the buy reply for the only contract pending clears the ledger and keeps the position. */
  lemma BuyReplyConfirms(s: State, cfg: Config, ca: Address, lookup: string -> Option<string>,
                         held: nat -> bool, now: real)
    requires ZeroXHexAt(ca, 0, AddressDigits) && |ca| == 2 + AddressDigits
    requires cfg.wallet == ""
    requires forall e :: e in s.pending ==> Matches(e.1, ca, Buy)
    ensures BotReply(s, cfg, "已成功买入 " + ca, None, lookup, held, now) == Step(State([], s.positions), [])
  {
    BuyReplyResolves(ca);
    ConfirmClearsAll(s.pending, ca, Buy);
  }

  /**
   * The happy path of one contract with no wallet configured: the operator
   * sends the address, the buy is priced at 10 and confirmed, the price
   * reaches 16 against a 50% target, and the next tick sells it.
   */
  lemma BuyThenTakeProfit(ca: Address, user: UserId, cfg: Config, sample: nat -> Option<real>,
                          lookup: string -> Option<string>, held: nat -> bool,
                          price: Address -> Option<real>, balance: (Address, nat) -> bool,
                          t0: real, t1: real, t2: real, t3: real)
    requires ZeroXHexAt(ca, 0, AddressDigits) && |ca| == 2 + AddressDigits
    requires IsAuthorized(cfg, user) && cfg.wallet == "" && cfg.takeProfit == 50.0
    requires sample(0) == Some(10.0) && price(ca) == Some(16.0)
    ensures var bought := OperatorMessage(State([], []), cfg, user, ca, true, sample, t0, t1);
            var confirmed := BotReply(bought.state, cfg, "已成功买入 " + ca, None, lookup, held, t2);
            var ticked := Tick(confirmed.state, cfg, t3, price, balance);
            && bought.sent == [BuyCmd(ca, cfg.buyAmount)]
            && confirmed == Step(State([], bought.state.positions), [])
            && Get(confirmed.state.positions, ca) == Some(Position(10.0, t1, 50.0, cfg.stopLoss, user, false, false))
            && SellCmd(ca) in ticked.sent
            && Get(ticked.state.positions, ca).None?
  {
    OperatorBuys(ca, user, cfg, sample, t0, t1);
    var bought := OperatorMessage(State([], []), cfg, user, ca, true, sample, t0, t1);
    BuyReplyConfirms(bought.state, cfg, ca, lookup, held, t2);
    var pos := Position(10.0, t1, 50.0, cfg.stopLoss, user, false, false);
    assert Decide(pos, price(ca)) == Some(TakeProfit);
    assert Fires(cfg, (ca, pos), price, balance);
  }
}

=== FILE: commands.dfy ===
/**
 * The instructions sent to the trading bot (app.py): `/buy {ca} {amount}`
 * and `/sell {ca} 100`, and how their parts are read back.
 */
module Commands {
  import opened Wrappers
  import opened Text

  datatype Command = BuyCmd(ca: string, amount: string) | SellCmd(ca: string)

  /** The instruction text: `/buy {ca} {amount}` or `/sell {ca} 100`. */
  function Render(c: Command): (r: string)
    ensures c.BuyCmd? ==> StartsWith(r, "/buy ") && |r| == 6 + |c.ca| + |c.amount|
    ensures c.SellCmd? ==> StartsWith(r, "/sell ") && r[|r| - 4..] == " 100" && |r| == 10 + |c.ca|
  {
    match c
    case BuyCmd(ca, amount) => "/buy " + ca + " " + amount
    case SellCmd(ca) => "/sell " + ca + " 100"
  }

  /**
   * A reader for the instruction format, which the bot itself never needs:
   * the word after `/buy` is the address, the rest the amount.
   */
  function Parse(s: string): Option<Command>
  {
    if StartsWith(s, "/buy ") then
      var rest := s[5..];
      match IndexOf(rest, " ")
      case None => None
      case Some(i) => Some(BuyCmd(rest[..i], rest[i + 1..]))
    else if StartsWith(s, "/sell ") && |s| >= 10 && s[|s| - 4..] == " 100" then
      Some(SellCmd(s[6..|s| - 4]))
    else None
  }

  /**
   * The instruction format is unambiguous for space-free buy addresses:
   * every such instruction reads back as itself.
   */
  lemma ParseRender(c: Command)
    requires c.BuyCmd? ==> ' ' !in c.ca
    ensures Parse(Render(c)) == Some(c)
  {
    match c
    case BuyCmd(ca, amount) => ParseRenderBuy(ca, amount);
    case SellCmd(ca) => ParseRenderSell(ca);
  }

  lemma ParseRenderBuy(ca: string, amount: string)
    requires ' ' !in ca
    ensures Parse("/buy " + ca + " " + amount) == Some(BuyCmd(ca, amount))
  {
    var s := "/buy " + ca + " " + amount;
    assert s[..5] == "/buy ";
    var rest := s[5..];
    assert rest == ca + " " + amount;
    assert OccursAt(rest, " ", |ca|);
    forall j | 0 <= j < |ca|
      ensures !OccursAt(rest, " ", j)
    {
      assert rest[j] == ca[j];
    }
    assert IndexOf(rest, " ") == Some(|ca|);
    assert rest[..|ca|] == ca;
    assert rest[|ca| + 1..] == amount;
  }

  lemma ParseRenderSell(ca: string)
    ensures Parse("/sell " + ca + " 100") == Some(SellCmd(ca))
  {
    var s := "/sell " + ca + " 100";
    assert !StartsWith(s, "/buy ") by {
      assert s[1] == 's';
    }
    assert s[..6] == "/sell ";
    assert s[|s| - 4..] == " 100";
    assert s[6..|s| - 4] == ca;
  }

  /**
   * Without that condition two different buys render alike: a space inside
   * the address is indistinguishable from the separator before the amount.
   */
  lemma SpacedAddressAmbiguous(a: string, b: string, amount: string)
    ensures Render(BuyCmd(a + " " + b, amount)) == Render(BuyCmd(a, b + " " + amount))
    ensures BuyCmd(a + " " + b, amount) != BuyCmd(a, b + " " + amount)
  {
    assert |a + " " + b| != |a|;
  }
}

=== FILE: dict.dfy ===
/**
 * Python's built-in `dict` as the bot uses it: entries kept in insertion
 * order, keys distinct, assignment to an existing key updating the entry in
 * place and `del` removing it. Both of the bot's maps are dicts, and their
 * order is observable: the failure handler breaks timestamp ties by it and the
 * monitoring tick walks the price map in it.
 */
module Dict {
  import opened Wrappers

  ghost predicate DistinctKeys<K, V>(s: seq<(K, V)>)
  {
    forall i, j :: 0 <= i < j < |s| ==> s[i].0 != s[j].0
  }

  type Dict<K, V> = s: seq<(K, V)> | DistinctKeys(s) witness []

  /** `d[k]` when `k in d`, as an option. */
  function Get<K(==), V(!new)>(d: Dict<K, V>, k: K): (r: Option<V>)
    ensures r.Some? <==> exists v :: (k, v) in d
    ensures forall v :: (k, v) in d <==> r == Some(v)
  {
    if |d| == 0 then None
    else if d[0].0 == k then Some(d[0].1)
    else
      TailDistinct(d);
      Get(d[1..], k)
  }

  /** `d[k] = v`: an existing key keeps its place, a new key goes last. */
  function Put<K(==,!new), V(!new)>(d: Dict<K, V>, k: K, v: V): (r: Dict<K, V>)
    ensures forall e :: e in r <==> e == (k, v) || (e in d && e.0 != k)
    ensures Get(d, k).None? ==> r == d + [(k, v)]
    ensures Get(d, k).Some? ==> |r| == |d|
  {
    if |d| == 0 then [(k, v)]
    else if d[0].0 == k then
      TailDistinct(d);
      assert forall e :: e in d[1..] ==> e.0 != k;
      ConsDistinct((k, v), d[1..]);
      assert forall e :: e in d <==> e == d[0] || e in d[1..];
      [(k, v)] + d[1..]
    else
      TailDistinct(d);
      var rest := Put(d[1..], k, v);
      assert forall e :: e in rest ==> e.0 != d[0].0;
      ConsDistinct(d[0], rest);
      assert d == [d[0]] + d[1..];
      assert forall e :: e in d <==> e == d[0] || e in d[1..];
      assert forall e :: e in [d[0]] + rest <==> e == d[0] || e in rest;
      assert Get(d, k) == Get(d[1..], k);
      ConsThenSnoc(d[0], d[1..], (k, v));
      [d[0]] + rest
  }

  lemma ConsThenSnoc<T>(x: T, s: seq<T>, y: T)
    ensures [x] + (s + [y]) == ([x] + s) + [y]
  {
  }

  /** Dropping the first entry keeps the keys distinct. */
  lemma TailDistinct<K, V>(d: Dict<K, V>)
    requires |d| > 0
    ensures DistinctKeys(d[1..])
  {
    forall i, j | 0 <= i < j < |d| - 1 ensures d[1..][i].0 != d[1..][j].0 {
      assert d[1..][i] == d[i + 1] && d[1..][j] == d[j + 1];
    }
  }

  /** A key that is new to a dict can be put in front of it. */
  lemma ConsDistinct<K, V>(x: (K, V), rest: Dict<K, V>)
    requires forall e :: e in rest ==> e.0 != x.0
    ensures DistinctKeys([x] + rest)
  {
    var r := [x] + rest;
    forall i, j | 0 <= i < j < |r| ensures r[i].0 != r[j].0 {
      assert r[j] == rest[j - 1];
      if i > 0 {
        assert r[i] == rest[i - 1];
      } else {
        assert rest[j - 1] in rest;
      }
    }
  }

  /** `r` is `d` with some entries left out and the others in their order. */
  predicate Kept<T(==)>(r: seq<T>, d: seq<T>)
    decreases |d|
  {
    if |r| == 0 then true
    else if |d| == 0 then false
    else if r[0] == d[0] then Kept(r[1..], d[1..])
    else Kept(r, d[1..])
  }

  lemma KeptSelf<T>(s: seq<T>)
    ensures Kept(s, s)
  {
  }

  /** `del d[k]`, and nothing when `k` is absent. */
  function Remove<K(==,!new), V(!new)>(d: Dict<K, V>, k: K): (r: Dict<K, V>)
    ensures forall e :: e in r <==> e in d && e.0 != k
    ensures Get(d, k).None? ==> r == d
    ensures |r| <= |d|
  {
    if |d| == 0 then []
    else
      TailDistinct(d);
      if d[0].0 == k then d[1..]
      else
        var rest := Remove(d[1..], k);
        assert forall e :: e in rest ==> e.0 != d[0].0;
        ConsDistinct(d[0], rest);
        [d[0]] + rest
  }

  /** Writing an existing key changes its value in place; every other entry stays where it was. */
  lemma {:induction false} PutInPlace<K(!new), V(!new)>(d: Dict<K, V>, k: K, v: V)
    requires Get(d, k).Some?
    ensures |Put(d, k, v)| == |d|
    ensures forall i :: 0 <= i < |d| ==> Put(d, k, v)[i] == if d[i].0 == k then (k, v) else d[i]
  {
    var r := Put(d, k, v);
    if d[0].0 == k {
      forall i | 1 <= i < |d| ensures r[i] == d[i] && d[i].0 != k {
        assert r[i] == d[1..][i - 1];
      }
    } else {
      TailDistinct(d);
      var tail: Dict<K, V> := d[1..];
      PutInPlace(tail, k, v);
      assert r == [d[0]] + Put(tail, k, v);
      forall i | 1 <= i < |d| ensures r[i] == if d[i].0 == k then (k, v) else d[i] {
        assert r[i] == Put(tail, k, v)[i - 1] && tail[i - 1] == d[i];
      }
    }
  }

  /** Writing the value a key already holds leaves the dict as it was. */
  lemma PutPresent<K(!new), V(!new)>(d: Dict<K, V>, k: K, v: V)
    requires Get(d, k) == Some(v)
    ensures Put(d, k, v) == d
  {
    PutInPlace(d, k, v);
    forall i | 0 <= i < |d| ensures Put(d, k, v)[i] == d[i] {
      assert d[i] in d;
    }
  }

  /** `del` keeps the order of the entries that remain. */
  lemma {:induction false} RemoveKeepsOrder<K(!new), V(!new)>(d: Dict<K, V>, k: K)
    ensures Kept(Remove(d, k), d)
  {
    if |d| == 0 {
    } else if d[0].0 == k {
      KeptSelf(d[1..]);
      if |d| > 1 {
        assert d[1] != d[0];
      }
    } else {
      TailDistinct(d);
      var tail: Dict<K, V> := d[1..];
      RemoveKeepsOrder(tail, k);
      assert Remove(d, k) == [d[0]] + Remove(tail, k);
      assert Remove(d, k)[1..] == Remove(tail, k);
    }
  }

  /** The entries of `d` that `keep` accepts, in their order. */
  function Filter<K(!new), V(!new)>(d: Dict<K, V>, keep: (K, V) -> bool): (r: Dict<K, V>)
    ensures forall e :: e in r <==> e in d && keep(e.0, e.1)
    ensures Kept(r, d)
    ensures |r| <= |d|
  {
    if |d| == 0 then []
    else
      TailDistinct(d);
      var rest := Filter(d[1..], keep);
      assert forall e :: e in rest ==> e.0 != d[0].0;
      ConsDistinct(d[0], rest);
      if keep(d[0].0, d[0].1) then [d[0]] + rest else rest
  }

  /** Deleting one key and writing another commute when the keys differ. */
  lemma {:induction false} PutRemoveCommute<K(!new), V(!new)>(d: Dict<K, V>, put: K, v: V, del: K)
    requires put != del
    ensures Remove(Put(d, put, v), del) == Put(Remove(d, del), put, v)
  {
    if |d| == 0 {
    } else if d[0].0 == put {
      assert Remove(Put(d, put, v), del) == [(put, v)] + Remove(d[1..], del);
    } else if d[0].0 == del {
      assert Put(d, put, v) == [d[0]] + Put(d[1..], put, v);
    } else {
      PutRemoveCommute(d[1..], put, v, del);
      assert Put(d, put, v) == [d[0]] + Put(d[1..], put, v);
      assert Remove(d, del) == [d[0]] + Remove(d[1..], del);
      assert Remove(d, del)[1..] == Remove(d[1..], del);
    }
  }
}

=== FILE: extract.dfy ===
/**
 * Pulling a token contract address and a transaction hash out of the
 * free text the trading bot replies with (app.py, the `0x[a-fA-F0-9]{40}`
 * search of the reply handler and the string branch of
 * `TransactionManager.extract_transaction_hash`), and the operator intake
 * test on an incoming address.
 */
module Extract {
  import opened Wrappers
  import opened Text

  /** Hex digits in a contract address and in a transaction hash. */
  const AddressDigits: nat := 40
  const HashDigits: nat := 64

  predicate HexRunAt(s: string, i: int, n: nat)
  {
    0 <= i && i + n <= |s| && forall k :: i <= k < i + n ==> IsHexDigit(s[k])
  }

  /** `0x` followed by `n` hex digits starts at `i`. */
  predicate ZeroXHexAt(s: string, i: int, n: nat)
  {
    0 <= i && i + 2 + n <= |s| && s[i] == '0' && s[i + 1] == 'x' && HexRunAt(s, i + 2, n)
  }

  /** A hex run cut out of its string is a hex run on its own. */
  lemma HexRunCut(s: string, i: nat, n: nat)
    requires HexRunAt(s, i, n)
    ensures HexRunAt(s[i..i + n], 0, n)
  {
    var w := s[i..i + n];
    forall k | 0 <= k < n ensures IsHexDigit(w[k]) {
      assert w[k] == s[i + k];
    }
  }

  lemma ZeroXHexCut(s: string, i: nat, n: nat)
    requires ZeroXHexAt(s, i, n)
    ensures ZeroXHexAt(s[i..i + 2 + n], 0, n)
  {
    var w := s[i..i + 2 + n];
    forall k | 2 <= k < 2 + n ensures IsHexDigit(w[k]) {
      assert w[k] == s[i + k];
    }
  }

  /** Leftmost match of `0x[a-fA-F0-9]{n}` at or after `from`. */
  function LeftmostFrom(s: string, n: nat, from: nat): (r: Option<nat>)
    ensures r.Some? ==> from <= r.value && ZeroXHexAt(s, r.value, n)
    ensures r.Some? ==> forall j :: from <= j < r.value ==> !ZeroXHexAt(s, j, n)
    ensures r.None? ==> forall j :: from <= j ==> !ZeroXHexAt(s, j, n)
    decreases |s| - from
  {
    if from + 2 + n > |s| then None
    else if ZeroXHexAt(s, from, n) then Some(from)
    else LeftmostFrom(s, n, from + 1)
  }

  function Leftmost(s: string, n: nat): Option<nat>
  {
    LeftmostFrom(s, n, 0)
  }

  /** `re.search(r"0x[a-fA-F0-9]{40}", text)`: the leftmost address-shaped run. */
  function FindContract(text: string): (r: Option<string>)
    ensures r.None? <==> forall i :: !ZeroXHexAt(text, i, AddressDigits)
    ensures r.Some? ==> |r.value| == 2 + AddressDigits && ZeroXHexAt(r.value, 0, AddressDigits)
    ensures r.Some? ==> exists i :: ZeroXHexAt(text, i, AddressDigits) && r.value == text[i..i + 2 + AddressDigits]
                                    && forall j :: 0 <= j < i ==> !ZeroXHexAt(text, j, AddressDigits)
  {
    match Leftmost(text, AddressDigits)
    case None => None
    case Some(i) =>
      ZeroXHexCut(text, i, AddressDigits);
      Some(text[i..i + 2 + AddressDigits])
  }

  /** A hash-shaped run always holds an address-shaped run: its first 42 characters. */
  lemma HashHoldsAddress(s: string, p: nat)
    requires ZeroXHexAt(s, p, HashDigits)
    ensures ZeroXHexAt(s, p, AddressDigits)
  {
  }

  /**
   * A reply carrying a full `0x` transaction hash, and no address-shaped run
   * before it, yields the hash's first 42 characters as the contract address.
   */
  lemma {:induction false} HashPrefixTakenForContract(text: string, p: nat)
    requires ZeroXHexAt(text, p, HashDigits)
    requires forall j :: 0 <= j < p ==> !ZeroXHexAt(text, j, AddressDigits)
    ensures FindContract(text) == Some(text[p..p + 2 + AddressDigits])
  {
    HashHoldsAddress(text, p);
    var r := Leftmost(text, AddressDigits);
    assert r == Some(p);
  }

  // ---- string branch of extract_transaction_hash ----

  /** The fixed text of the URL with its three optional pieces chosen. */
  function UrlText(paren: bool, secure: bool, www: bool): (u: string)
    ensures |u| == (if paren then 1 else 0) + 4 + (if secure then 1 else 0) + 3 + (if www then 4 else 0) + 15
  {
    (if paren then "(" else "") + ("http" + ((if secure then "s" else "") + ("://"
      + ((if www then "www." else "") + "bscscan.com/tx/"))))
  }

  /** `u` is what `\s*\(?https?://(?:www\.)?bscscan\.com/tx/` matches: some whitespace, then a `UrlText`. */
  ghost predicate UrlLead(u: string)
  {
    exists n: nat, paren: bool, secure: bool, www: bool ::
      && n <= |u|
      && (forall k :: 0 <= k < n ==> IsSpace(u[k]))
      && u[n..] == UrlText(paren, secure, www)
  }

  lemma SliceJoin(s: string, a: nat, b: nat, c: nat)
    requires a <= b <= c <= |s|
    ensures s[a..c] == s[a..b] + s[b..c]
  {
  }

  /** The fixed pieces `UrlHashAt` steps over spell a `UrlText`. */
  lemma UrlTextAt(s: string, j0: nat, j1: nat, j3: nat, j5: nat, j6: nat)
    requires j0 <= j1 <= j3 <= j5 <= j6 <= |s|
    requires j1 == j0 || (j1 == j0 + 1 && s[j0] == '(')
    requires OccursAt(s, "http", j1)
    requires j3 == j1 + 4 || (j3 == j1 + 5 && s[j1 + 4] == 's')
    requires OccursAt(s, "://", j3)
    requires j5 == j3 + 3 || (j5 == j3 + 7 && OccursAt(s, "www.", j3 + 3))
    requires OccursAt(s, "bscscan.com/tx/", j5) && j6 == j5 + 15
    ensures s[j0..j6] == UrlText(j1 > j0, j3 > j1 + 4, j5 > j3 + 3)
  {
    var tail := "bscscan.com/tx/";
    SliceJoin(s, j3 + 3, j5, j6);
    assert s[j3 + 3..j5] == (if j5 > j3 + 3 then "www." else "");
    tail := (if j5 > j3 + 3 then "www." else "") + tail;
    SliceJoin(s, j3, j3 + 3, j6);
    tail := "://" + tail;
    SliceJoin(s, j1 + 4, j3, j6);
    assert s[j1 + 4..j3] == (if j3 > j1 + 4 then "s" else "");
    tail := (if j3 > j1 + 4 then "s" else "") + tail;
    SliceJoin(s, j1, j1 + 4, j6);
    tail := "http" + tail;
    SliceJoin(s, j0, j1, j6);
    assert s[j0..j1] == (if j1 > j0 then "(" else "");
  }

  /** Whitespace followed by a `UrlText` is a `UrlLead`. */
  lemma SpacesThenUrlText(s: string, i: nat, j0: nat, j6: nat, paren: bool, secure: bool, www: bool)
    requires i <= j0 <= j6 <= |s|
    requires forall k :: i <= k < j0 ==> IsSpace(s[k])
    requires s[j0..j6] == UrlText(paren, secure, www)
    ensures UrlLead(s[i..j6])
  {
    var u := s[i..j6];
    assert u[j0 - i..] == s[j0..j6];
    forall k | 0 <= k < j0 - i ensures IsSpace(u[k]) {
      assert u[k] == s[i + k];
    }
  }

  /** The pieces `UrlHashAt` steps over, whitespace first, make up a `UrlLead`. */
  lemma UrlLeadFromPieces(s: string, i: nat, j0: nat, j1: nat, j3: nat, j5: nat, j6: nat)
    requires i <= j0 <= j1 <= j3 <= j5 <= j6 <= |s|
    requires forall k :: i <= k < j0 ==> IsSpace(s[k])
    requires j1 == j0 || (j1 == j0 + 1 && s[j0] == '(')
    requires OccursAt(s, "http", j1)
    requires j3 == j1 + 4 || (j3 == j1 + 5 && s[j1 + 4] == 's')
    requires OccursAt(s, "://", j3)
    requires j5 == j3 + 3 || (j5 == j3 + 7 && OccursAt(s, "www.", j3 + 3))
    requires OccursAt(s, "bscscan.com/tx/", j5) && j6 == j5 + 15
    ensures UrlLead(s[i..j6])
  {
    UrlTextAt(s, j0, j1, j3, j5, j6);
    SpacesThenUrlText(s, i, j0, j6, j1 > j0, j3 > j1 + 4, j5 > j3 + 3);
  }

  /** The index past an optional `c` at `j`. */
  function SkipOptional(s: string, j: nat, c: char): nat
  {
    if j < |s| && s[j] == c then j + 1 else j
  }

  /**
   * The optional group `\s*\(?https?://(?:www\.)?bscscan\.com/tx/([a-fA-F0-9]{64})`
   * tried right after a "bscscan" ending at `i`; every optional piece is
   * decided by the text at its position, so no backtracking is needed. The
   * result is the index of the 64 captured digits. The closing `\)?` after
   * the digits cannot change the captured group, so it is not modelled.
   */
  function UrlHashAt(s: string, i: nat): (r: Option<nat>)
    requires i <= |s|
    ensures r.Some? ==> i <= r.value && HexRunAt(s, r.value, HashDigits)
    ensures r.Some? ==> UrlLead(s[i..r.value])
  {
    var j0 := SkipFrom(s, i);
    var j1 := SkipOptional(s, j0, '(');
    if UrlFromScheme(s, j1).Some? then
      LeadThroughScheme(s, i, j0, j1);
      UrlFromScheme(s, j1)
    else None
  }

  /** `https?://` and the rest of the group, from `j`. */
  function UrlFromScheme(s: string, j: nat): (r: Option<nat>)
    ensures r.Some? ==> j <= r.value && HexRunAt(s, r.value, HashDigits)
  {
    if OccursAt(s, "http", j) then UrlFromSeparator(s, SkipOptional(s, j + 4, 's')) else None
  }

  /** `://(?:www\.)?` and the rest of the group, from `j`. */
  function UrlFromSeparator(s: string, j: nat): (r: Option<nat>)
    ensures r.Some? ==> j <= r.value && HexRunAt(s, r.value, HashDigits)
  {
    if OccursAt(s, "://", j) then UrlFromHost(s, if OccursAt(s, "www.", j + 3) then j + 7 else j + 3) else None
  }

  /** `bscscan\.com/tx/([a-fA-F0-9]{64})` from `j`: the index of the digits. */
  function UrlFromHost(s: string, j: nat): (r: Option<nat>)
    ensures r.Some? ==> j <= r.value && HexRunAt(s, r.value, HashDigits)
  {
    if OccursAt(s, "bscscan.com/tx/", j) && HexRunAt(s, j + 15, HashDigits) then Some(j + 15) else None
  }

  /**
   * Branch 1. The pattern's group is optional, so `re.search` stops at the
   * FIRST "bscscan" whether or not the URL follows it; later occurrences are
   * never looked at.
   */
  function UrlBranch(s: string): (r: Option<nat>)
    ensures r.Some? ==> HexRunAt(s, r.value, HashDigits)
    ensures r.Some? ==> IndexOf(s, "bscscan").Some?
    ensures r.Some? ==> && IndexOf(s, "bscscan").value + 7 <= r.value
                        && UrlLead(s[IndexOf(s, "bscscan").value + 7..r.value])
  {
    match IndexOf(s, "bscscan")
    case None => None
    case Some(i) => UrlHashAt(s, i + 7)
  }

  predicate NoNewline(s: string, from: int, to: int)
  {
    forall k :: from <= k < to && 0 <= k < |s| ==> s[k] != '\n'
  }

  /** The lazy `.*?(0x[a-fA-F0-9]{64})` from `q`: `.` never crosses a newline. */
  function LazyHashFrom(s: string, q: nat): (r: Option<nat>)
    ensures r.Some? ==> q <= r.value && ZeroXHexAt(s, r.value, HashDigits) && NoNewline(s, q, r.value)
    ensures r.Some? ==> forall p :: q <= p < r.value ==> !ZeroXHexAt(s, p, HashDigits)
    ensures r.None? ==> forall p :: q <= p && NoNewline(s, q, p) ==> !ZeroXHexAt(s, p, HashDigits)
    decreases |s| - q
  {
    if ZeroXHexAt(s, q, HashDigits) then Some(q)
    else if q < |s| && s[q] != '\n' then
      var r := LazyHashFrom(s, q + 1);
      assert forall p :: q + 1 <= p && NoNewline(s, q, p) ==> NoNewline(s, q + 1, p);
      r
    else None
  }

  /** Branch 2, `bscscan.*?(0x[a-fA-F0-9]{64})`, trying each "bscscan" from `from` on. */
  function BscscanLineBranchFrom(s: string, from: nat): (r: Option<nat>)
    ensures r.Some? ==> ZeroXHexAt(s, r.value, HashDigits)
    ensures r.Some? ==> exists i :: && from <= i && OccursAt(s, "bscscan", i) && LazyHashFrom(s, i + 7) == r
                                    && forall j :: from <= j < i && OccursAt(s, "bscscan", j) ==> LazyHashFrom(s, j + 7).None?
    ensures r.None? ==> forall i :: from <= i && OccursAt(s, "bscscan", i) ==> LazyHashFrom(s, i + 7).None?
    decreases |s| - from
  {
    match IndexOfFrom(s, "bscscan", from)
    case None => None
    case Some(i) =>
      match LazyHashFrom(s, i + 7)
      case Some(p) =>
        assert OccursAt(s, "bscscan", i);
        Some(p)
      case None =>
        var r := BscscanLineBranchFrom(s, i + 1);
        assert forall j :: from <= j < i + 1 && OccursAt(s, "bscscan", j) ==> j == i;
        r
  }

  /** A bare 64-digit hash, as branch 1 returns it. */
  predicate IsBareHash(h: string)
  {
    |h| == HashDigits && HexRunAt(h, 0, HashDigits)
  }

  /** A `0x`-prefixed hash, as branches 2 and 3 return it. */
  predicate IsPrefixedHash(h: string)
  {
    |h| == 2 + HashDigits && ZeroXHexAt(h, 0, HashDigits)
  }

  /** Where branches 2 and 3 find their `0x` hash: on a "bscscan" line if there is one, else anywhere. */
  function TextHashAt(s: string): (r: Option<nat>)
    ensures r.Some? ==> ZeroXHexAt(s, r.value, HashDigits)
    ensures r.None? ==> forall p :: !ZeroXHexAt(s, p, HashDigits)
    ensures BscscanLineBranchFrom(s, 0).Some? ==> r == BscscanLineBranchFrom(s, 0)
    ensures BscscanLineBranchFrom(s, 0).None? ==> r == Leftmost(s, HashDigits)
  {
    match BscscanLineBranchFrom(s, 0)
    case Some(p) => Some(p)
    case None => Leftmost(s, HashDigits)
  }

  /**
   * `TransactionManager.extract_transaction_hash` on a string: the 64 digits
   * of the URL after the first "bscscan"; failing that, the `0x` hash that
   * branches 2 and 3 find.
   */
  function ExtractTransactionHash(s: string): (r: Option<string>)
    ensures UrlBranch(s).Some? ==> r == Some(s[UrlBranch(s).value..UrlBranch(s).value + HashDigits])
    ensures UrlBranch(s).None? ==> (r.Some? <==> TextHashAt(s).Some?)
    ensures UrlBranch(s).None? && TextHashAt(s).Some? ==>
              r == Some(s[TextHashAt(s).value..TextHashAt(s).value + 2 + HashDigits])
  {
    match UrlBranch(s)
    case Some(j) => Some(s[j..j + HashDigits])
    case None =>
      match TextHashAt(s)
      case None => None
      case Some(p) => Some(s[p..p + 2 + HashDigits])
  }

  /**
   * A result is a bare 64-digit hash exactly when it comes from the URL, and
   * a `0x`-prefixed one only when there is no URL hash.
   */
  lemma ExtractedShape(s: string)
    ensures ExtractTransactionHash(s).Some? ==>
              IsBareHash(ExtractTransactionHash(s).value) || IsPrefixedHash(ExtractTransactionHash(s).value)
    ensures ExtractTransactionHash(s).Some? && IsBareHash(ExtractTransactionHash(s).value) ==>
              UrlBranch(s).Some?
    ensures ExtractTransactionHash(s).Some? && IsPrefixedHash(ExtractTransactionHash(s).value) ==>
              UrlBranch(s).None?
  {
    match UrlBranch(s)
    case Some(j) => HexRunCut(s, j, HashDigits);
    case None =>
      match TextHashAt(s)
      case None =>
      case Some(p) => ZeroXHexCut(s, p, HashDigits);
  }

  /** The extractor gives nothing exactly when there is neither a URL hash nor any `0x` hash. */
  lemma NothingWithoutHashes(s: string)
    ensures ExtractTransactionHash(s).None? <==> UrlBranch(s).None? && forall p :: !ZeroXHexAt(s, p, HashDigits)
  {
    if UrlBranch(s).None? && TextHashAt(s).Some? {
      assert ZeroXHexAt(s, TextHashAt(s).value, HashDigits);
    }
  }

  /** A `0x` hash the extractor returns is a run that occurs in the text. */
  lemma PrefixedHashOccurs(s: string)
    ensures ExtractTransactionHash(s).Some? && IsPrefixedHash(ExtractTransactionHash(s).value) ==>
              exists p :: ZeroXHexAt(s, p, HashDigits) && ExtractTransactionHash(s).value == s[p..p + 2 + HashDigits]
  {
    ExtractedShape(s);
    if ExtractTransactionHash(s).Some? && IsPrefixedHash(ExtractTransactionHash(s).value) {
      var p := TextHashAt(s).value;
      assert ZeroXHexAt(s, p, HashDigits);
    }
  }

  /** "bscscan" written after a text that lacks it is the first occurrence. */
  lemma FirstBscscanAfter(a: string, t: string)
    requires !Contains(a, "bscscan")
    requires |a| + 7 <= |t| && t[..|a|] == a && t[|a|..|a| + 7] == "bscscan"
    ensures IndexOf(t, "bscscan") == Some(|a|)
  {
    forall j | 0 <= j < |a| ensures !OccursAt(t, "bscscan", j) {
      if j + 7 <= |a| {
        assert !OccursAt(a, "bscscan", j);
        assert t[j..j + 7] == a[j..j + 7];
      } else if j + 7 <= |t| {
        // the 'b' at |a| would have to be one of the letters after the first
        var d := |a| - j;
        assert "bscscan"[d] == "scscan"[d - 1] != 'b';
        assert t[j..j + 7][d] == t[|a|] == t[|a|..|a| + 7][0] == 'b';
      }
    }
    assert OccursAt(t, "bscscan", |a|);
  }

  /** A slice that spells `x + y` spells `x` and then `y`. */
  lemma SliceSplit(s: string, a: nat, b: nat, x: string, y: string)
    requires a <= b <= |s| && s[a..b] == x + y
    ensures a + |x| <= b && s[a..a + |x|] == x && s[a + |x|..b] == y
  {
    assert s[a..a + |x|] == s[a..b][..|x|];
    assert s[a + |x|..b] == s[a..b][|x|..];
  }

  /** The same for an optional piece: what follows it, and the letter that shows whether it is there. */
  lemma OptionalSplit(s: string, a: nat, m: nat, b: nat, present: bool, x: string, y: string)
    requires a <= b <= |s| && 0 < |x| && 0 < |y|
    requires m == if present then a + |x| else a
    requires s[a..b] == (if present then x else "") + y
    ensures m < b && s[m..b] == y
    ensures present ==> s[a..m] == x
    ensures s[a] == (if present then x[0] else y[0])
  {
    if present {
      SliceSplit(s, a, b, x, y);
      assert s[a] == s[a..a + |x|][0];
    } else {
      assert s[a..b] == y;
      assert s[a] == s[a..b][0];
    }
  }

  lemma HostFound(s: string, j: nat, d: nat)
    requires j <= d <= |s| && s[j..d] == "bscscan.com/tx/" && HexRunAt(s, d, HashDigits)
    ensures UrlFromHost(s, j) == Some(d)
  {
    assert d == j + |s[j..d]| == j + 15;
  }

  lemma SeparatorFound(s: string, j: nat, d: nat, www: bool)
    requires j <= d <= |s| && HexRunAt(s, d, HashDigits)
    requires s[j..d] == "://" + ((if www then "www." else "") + "bscscan.com/tx/")
    ensures UrlFromSeparator(s, j) == Some(d)
  {
    SliceSplit(s, j, d, "://", (if www then "www." else "") + "bscscan.com/tx/");
    var m := if www then j + 7 else j + 3;
    OptionalSplit(s, j + 3, m, d, www, "www.", "bscscan.com/tx/");
    assert OccursAt(s, "://", j);
    if www {
      assert OccursAt(s, "www.", j + 3);
    } else {
      assert s[j + 3..j + 7][0] == s[j + 3] == 'b';
    }
    HostFound(s, m, d);
  }

  lemma SchemeFound(s: string, j: nat, d: nat, secure: bool, www: bool)
    requires j <= d <= |s| && HexRunAt(s, d, HashDigits)
    requires s[j..d] == "http" + ((if secure then "s" else "") + ("://" + ((if www then "www." else "") + "bscscan.com/tx/")))
    ensures UrlFromScheme(s, j) == Some(d)
  {
    var rest := "://" + ((if www then "www." else "") + "bscscan.com/tx/");
    SliceSplit(s, j, d, "http", (if secure then "s" else "") + rest);
    var m := if secure then j + 5 else j + 4;
    OptionalSplit(s, j + 4, m, d, secure, "s", rest);
    SeparatorFound(s, m, d, www);
  }

  /** Skipping whitespace stops at the first other character. */
  lemma SkipStops(s: string, i: nat, j: nat)
    requires i <= j < |s| && !IsSpace(s[j]) && forall k :: i <= k < j ==> IsSpace(s[k])
    ensures SkipFrom(s, i) == j
  {
  }

  /**
   * The converse of `UrlHashAt`'s contract: whitespace, any `UrlText` and 64
   * hex digits after `i` are matched, and the digits' index is the answer.
   */
  lemma UrlHashAtFinds(s: string, i: nat, j0: nat, d: nat, paren: bool, secure: bool, www: bool)
    requires i <= j0 <= d <= |s|
    requires forall k :: i <= k < j0 ==> IsSpace(s[k])
    requires s[j0..d] == UrlText(paren, secure, www) && HexRunAt(s, d, HashDigits)
    ensures UrlHashAt(s, i) == Some(d)
  {
    var rest := "http" + ((if secure then "s" else "") + ("://" + ((if www then "www." else "") + "bscscan.com/tx/")));
    var j1 := if paren then j0 + 1 else j0;
    OptionalSplit(s, j0, j1, d, paren, "(", rest);
    assert s[j0] == '(' || s[j0] == 'h';
    SkipStops(s, i, j0);
    SchemeFound(s, j1, d, secure, www);
  }

  /** What `UrlFromSeparator` stepped over when it answers. */
  lemma SeparatorPieces(s: string, j: nat) returns (j5: nat)
    requires UrlFromSeparator(s, j).Some?
    ensures OccursAt(s, "://", j)
    ensures j5 == j + 3 || (j5 == j + 7 && OccursAt(s, "www.", j + 3))
    ensures OccursAt(s, "bscscan.com/tx/", j5) && UrlFromSeparator(s, j) == Some(j5 + 15)
  {
    j5 := if OccursAt(s, "www.", j + 3) then j + 7 else j + 3;
  }

  /** What `UrlFromScheme` stepped over when it answers. */
  lemma SchemePieces(s: string, j: nat) returns (j3: nat, j5: nat)
    requires UrlFromScheme(s, j).Some?
    ensures OccursAt(s, "http", j)
    ensures j3 == j + 4 || (j3 == j + 5 && s[j + 4] == 's')
    ensures OccursAt(s, "://", j3)
    ensures j5 == j3 + 3 || (j5 == j3 + 7 && OccursAt(s, "www.", j3 + 3))
    ensures OccursAt(s, "bscscan.com/tx/", j5) && UrlFromScheme(s, j) == Some(j5 + 15)
  {
    j3 := SkipOptional(s, j + 4, 's');
    j5 := SeparatorPieces(s, j3);
  }

  /** Whitespace, an optional "(" and what `UrlFromScheme` steps over make up a `UrlLead`. */
  lemma LeadThroughScheme(s: string, i: nat, j0: nat, j1: nat)
    requires i <= j0 <= |s| && forall k :: i <= k < j0 ==> IsSpace(s[k])
    requires j1 == SkipOptional(s, j0, '(') && UrlFromScheme(s, j1).Some?
    ensures UrlLead(s[i..UrlFromScheme(s, j1).value])
  {
    var j3, j5 := SchemePieces(s, j1);
    UrlLeadFromPieces(s, i, j0, j1, j3, j5, j5 + 15);
  }

  /** The converse of `UrlHashAt`'s contract: a `UrlLead` from `i` followed by 64 hex digits is matched. */
  lemma UrlLeadMatched(s: string, i: nat, d: nat)
    requires i <= d <= |s| && UrlLead(s[i..d]) && HexRunAt(s, d, HashDigits)
    ensures UrlHashAt(s, i) == Some(d)
  {
    var n, paren, secure, www := LeadParts(s[i..d]);
    SpacesThenText(s, i, d, n, UrlText(paren, secure, www));
    UrlHashAtFinds(s, i, i + n, d, paren, secure, www);
  }

  /** The whitespace count and the spelling a `UrlLead` is made of. */
  lemma LeadParts(u: string) returns (n: nat, paren: bool, secure: bool, www: bool)
    requires UrlLead(u)
    ensures n <= |u| && (forall k :: 0 <= k < n ==> IsSpace(u[k])) && u[n..] == UrlText(paren, secure, www)
  {
    n, paren, secure, www :| n <= |u| && (forall k :: 0 <= k < n ==> IsSpace(u[k])) && u[n..] == UrlText(paren, secure, www);
  }

  /** The facts of a lead cut out of `s`, read back in `s`. */
  lemma SpacesThenText(s: string, i: nat, d: nat, n: nat, v: string)
    requires i <= d <= |s| && n <= d - i
    requires forall k :: 0 <= k < n ==> IsSpace(s[i..d][k])
    requires s[i..d][n..] == v
    ensures i + n + |v| == d && s[i + n..d] == v
    ensures forall k :: i <= k < i + n ==> IsSpace(s[k])
  {
    assert s[i + n..d] == s[i..d][n..];
    forall k | i <= k < i + n ensures IsSpace(s[k]) {
      assert s[k] == s[i..d][k - i];
    }
  }

  /** `UrlHashAt` answers `d` exactly when a `UrlLead` runs from `i` to `d` and 64 hex digits follow. */
  lemma UrlHashAtExact(s: string, i: nat, d: nat)
    requires i <= d <= |s|
    ensures UrlHashAt(s, i) == Some(d) <==> UrlLead(s[i..d]) && HexRunAt(s, d, HashDigits)
  {
    if UrlLead(s[i..d]) && HexRunAt(s, d, HashDigits) {
      UrlLeadMatched(s, i, d);
    }
  }

  /** The first branch answers `d` exactly when the first "bscscan" is followed by a `UrlLead` up to `d` and 64 hex digits. */
  lemma UrlBranchExact(s: string, d: nat)
    ensures UrlBranch(s) == Some(d) <==>
              && IndexOf(s, "bscscan").Some?
              && IndexOf(s, "bscscan").value + 7 <= d <= |s|
              && UrlLead(s[IndexOf(s, "bscscan").value + 7..d])
              && HexRunAt(s, d, HashDigits)
  {
    match IndexOf(s, "bscscan")
    case None =>
    case Some(q) =>
      if q + 7 <= d <= |s| {
        UrlHashAtExact(s, q + 7, d);
      }
  }

  /** A URL after the first "bscscan", past any whitespace, is where the first branch finds its digits. */
  lemma UrlAfterFirstBscscan(s: string, q: nat, j0: nat, d: nat, paren: bool, secure: bool, www: bool)
    requires IndexOf(s, "bscscan") == Some(q) && q + 7 <= j0 <= d <= |s|
    requires forall k :: q + 7 <= k < j0 ==> IsSpace(s[k])
    requires s[j0..d] == UrlText(paren, secure, www) && HexRunAt(s, d, HashDigits)
    ensures UrlBranch(s) == Some(d)
  {
    UrlHashAtFinds(s, q + 7, j0, d, paren, secure, www);
  }

  /** Where each of six strings sits in their concatenation. */
  lemma Layout(a: string, k: string, w: string, u: string, h: string, b: string)
    ensures var t, i := a + k + w + u + h + b, |a| + |k|;
            && t[..|a|] == a && t[|a|..i] == k
            && (forall j :: i <= j < i + |w| ==> t[j] == w[j - i])
            && t[i + |w|..i + |w| + |u|] == u
            && t[i + |w| + |u|..i + |w| + |u| + |h|] == h
  {
  }

  /**
   * A transaction URL right after the first "bscscan", in any of the forms
   * the pattern admits, gives its 64 digits whatever follows them.
   */
  lemma UrlHashReturned(a: string, w: string, paren: bool, secure: bool, www: bool, h: string, b: string)
    requires !Contains(a, "bscscan")
    requires forall k :: 0 <= k < |w| ==> IsSpace(w[k])
    requires |h| == HashDigits && HexRunAt(h, 0, HashDigits)
    ensures ExtractTransactionHash(a + "bscscan" + w + UrlText(paren, secure, www) + h + b) == Some(h)
  {
    var u := UrlText(paren, secure, www);
    var t := a + "bscscan" + w + u + h + b;
    var i := |a| + 7;
    var j0 := i + |w|;
    var j6 := j0 + |u|;
    Layout(a, "bscscan", w, u, h, b);
    FirstBscscanAfter(a, t);
    assert HexRunAt(t, j6, HashDigits) by {
      forall k | j6 <= k < j6 + HashDigits ensures IsHexDigit(t[k]) {
        assert t[k] == t[j6..j6 + HashDigits][k - j6];
      }
    }
    UrlAfterFirstBscscan(t, |a|, j0, j6, paren, secure, www);
  }

  /**
   * Without a URL hash, the first `0x` hash on the line of the first
   * "bscscan" is the one returned, whatever other hashes the text holds.
   */
  lemma HashOnBscscanLine(s: string, i: nat, p: nat)
    requires UrlBranch(s).None? && IndexOf(s, "bscscan") == Some(i)
    requires i + 7 <= p && ZeroXHexAt(s, p, HashDigits) && NoNewline(s, i + 7, p)
    requires forall q :: i + 7 <= q < p ==> !ZeroXHexAt(s, q, HashDigits)
    ensures ExtractTransactionHash(s) == Some(s[p..p + 2 + HashDigits])
  {
    LazyFindsFirst(s, i + 7, p);
    FirstBscscanLine(s, i);
  }

  /** Branch 2 answers for the first "bscscan" when its line has a hash. */
  lemma FirstBscscanLine(s: string, i: nat)
    requires IndexOf(s, "bscscan") == Some(i) && LazyHashFrom(s, i + 7).Some?
    ensures TextHashAt(s) == LazyHashFrom(s, i + 7)
  {
    assert IndexOfFrom(s, "bscscan", 0) == Some(i);
  }

  /** The lazy scan stops at the first hash that the line reaches. */
  lemma LazyFindsFirst(s: string, q: nat, p: nat)
    requires q <= p && ZeroXHexAt(s, p, HashDigits) && NoNewline(s, q, p)
    requires forall j :: q <= j < p ==> !ZeroXHexAt(s, j, HashDigits)
    ensures LazyHashFrom(s, q) == Some(p)
  {
  }

  /** With no "bscscan" in the text, the extractor returns the leftmost `0x` hash, if any. */
  lemma NoBscscanTakesLeftmost(s: string)
    ensures !Contains(s, "bscscan") ==>
              match Leftmost(s, HashDigits)
              case None => ExtractTransactionHash(s).None?
              case Some(p) => ExtractTransactionHash(s) == Some(s[p..p + 2 + HashDigits])
  {
    if !Contains(s, "bscscan") {
      assert IndexOfFrom(s, "bscscan", 0).None?;
      assert BscscanLineBranchFrom(s, 0).None?;
    }
  }

  /** The operator intake test: `text.startswith("0x") and len(text) == 42`, digits unchecked. */
  predicate IsIntakeAddress(text: string)
  {
    StartsWith(text, "0x") && |text| == 2 + AddressDigits
  }

  /** Every address the reply search yields would also pass the intake test. */
  lemma FoundContractPassesIntake(text: string)
    requires FindContract(text).Some?
    ensures IsIntakeAddress(FindContract(text).value)
  {
    var c := FindContract(text).value;
    assert c[..2] == "0x";
  }

  /** The intake test does not look at the digits: forty 'z's after "0x" pass it. */
  lemma IntakeIgnoresDigits()
    ensures IsIntakeAddress("0x" + seq(AddressDigits, _ => 'z'))
    ensures FindContract("0x" + seq(AddressDigits, _ => 'z')).None?
  {
    var t := "0x" + seq(AddressDigits, _ => 'z');
    assert t[..2] == "0x";
    forall i: int
      ensures !ZeroXHexAt(t, i, AddressDigits)
    {
      if 0 <= i && i + 2 + AddressDigits <= |t| {
        assert i == 0 && t[2] == 'z';
      }
    }
  }

  /**
   * The raw reply's `0x` hash is also in its stripped text, where the address
   * search finds its prefix; so when that search finds nothing, the string
   * branch can only have produced a bare hash from the bscscan URL.
   */
  lemma {:induction false} NoAddressMeansNoPrefixedHash(raw: string)
    requires FindContract(Strip(raw)).None?
    ensures ExtractTransactionHash(raw).None? || IsBareHash(ExtractTransactionHash(raw).value)
  {
    forall p: int ensures !ZeroXHexAt(raw, p, HashDigits) {
      HashSurvivesStrip(raw, p);
    }
    ExtractedShape(raw);
    if UrlBranch(raw).None? {
      assert TextHashAt(raw).None?;
    }
  }

  /** A `0x` hash in the raw reply leaves an address-shaped run in the stripped text. */
  lemma HashSurvivesStrip(raw: string, p: int)
    ensures ZeroXHexAt(raw, p, HashDigits) ==> FindContract(Strip(raw)).Some?
  {
    if ZeroXHexAt(raw, p, HashDigits) {
      StripKeepsWindow(raw, p, 2 + AddressDigits);
      var a := StripStart(raw);
      var t := Strip(raw);
      var w := t[p - a..p - a + 2 + AddressDigits];
      assert w == raw[p..p + 2 + AddressDigits];
      forall k | p - a <= k < p - a + 2 + AddressDigits
        ensures t[k] == raw[k + a]
      {
        assert t[k] == w[k - (p - a)];
      }
      assert ZeroXHexAt(t, p - a, AddressDigits);
    }
  }
}

=== FILE: ledger.dfy ===
/**
 * The pending-transaction ledger, `BSCBot.pending_transactions` (app.py):
 * entries opened when a /buy or /sell instruction is sent, removed on a
 * confirmation, replaced or dropped on a failure notice, and expired after
 * five minutes without a reply.
 */
module Ledger {
  import opened Wrappers
  import opened Dict

  type Address = string
  type UserId = int

  datatype TxKind = Buy | Sell
  datatype ExitReason = TakeProfit | StopLoss

  /** The key `f"{type}_{ca}_{int(time.time())}"`, kept as its three parts. */
  datatype TxId = TxId(kind: TxKind, ca: Address, second: int)

  /**
   * One in-flight instruction. `reason` is set only on the sell entries the
   * exit rule opens; a retry's replacement does not copy it.
   */
  datatype Pending = Pending(ca: Address, kind: TxKind, user: UserId, timestamp: real,
                             retryCount: int, maxRetries: int, reason: Option<ExitReason>)

  type Ledger = Dict<TxId, Pending>

  /** Entries older than this many seconds are dropped by the cleanup. */
  const ExpiryWindow: real := 300.0

  /** Python's `int(x)` on a float: truncation toward zero. */
  function Trunc(x: real): (r: int)
    ensures 0.0 <= x ==> r as real <= x < r as real + 1.0
    ensures x < 0.0 ==> r as real - 1.0 < x <= r as real
  {
    if x >= 0.0 then x.Floor else -((-x).Floor)
  }

  /** The key an instruction dispatched at time `now` is filed under. */
  function KeyAt(kind: TxKind, ca: Address, now: real): TxId
  {
    TxId(kind, ca, Trunc(now))
  }

  /** The key an entry was filed under, given that key and timestamp come from one clock reading. */
  function KeyOf(p: Pending): TxId
  {
    KeyAt(p.kind, p.ca, p.timestamp)
  }

  /** A retry is only ever created below the budget; a first attempt may exceed a budget below one. */
  predicate WithinBudget(p: Pending)
  {
    0 <= p.retryCount && (p.retryCount == 0 || p.retryCount < p.maxRetries)
  }

  /** What every transition keeps: entries filed under their own key, retry counts within budget. */
  ghost predicate Consistent(l: Ledger)
  {
    forall e :: e in l ==> e.0 == KeyOf(e.1) && WithinBudget(e.1)
  }

  /** A fresh attempt: retry count 0, the configured budget, filed under the dispatch second. */
  function Open(l: Ledger, kind: TxKind, ca: Address, user: UserId, now: real,
                maxRetries: int, reason: Option<ExitReason>): (r: Ledger)
    ensures forall e :: e in r <==> (|| e == (KeyAt(kind, ca, now), Pending(ca, kind, user, now, 0, maxRetries, reason))
                                     || (e in l && e.0 != KeyAt(kind, ca, now)))
    ensures Consistent(l) ==> Consistent(r)
  {
    Put(l, KeyAt(kind, ca, now), Pending(ca, kind, user, now, 0, maxRetries, reason))
  }

  predicate Expired(p: Pending, now: real)
  {
    now - p.timestamp > ExpiryWindow
  }

  /** `cleanup_pending_transactions`: drop exactly the entries strictly older than the window. */
  function Cleanup(l: Ledger, now: real): (r: Ledger)
    ensures forall e :: e in r <==> e in l && now - e.1.timestamp <= ExpiryWindow
    ensures Consistent(l) ==> Consistent(r)
  {
    Filter(l, (id: TxId, p: Pending) => !Expired(p, now))
  }

  /** Running the cleanup again at the same time removes nothing more. */
  lemma CleanupIdempotent(l: Ledger, now: real)
    ensures Cleanup(Cleanup(l, now), now) == Cleanup(l, now)
  {
    var once := Cleanup(l, now);
    FilterKeepsAll(once, (id: TxId, p: Pending) => !Expired(p, now));
  }

  lemma {:induction false} FilterKeepsAll<K(!new), V(!new)>(d: Dict<K, V>, keep: (K, V) -> bool)
    requires forall e :: e in d ==> keep(e.0, e.1)
    ensures Filter(d, keep) == d
  {
    if |d| > 0 {
      var rest := d[1..];
      assert forall e :: e in rest ==> e in d;
      FilterKeepsAll(rest, keep);
      assert keep(d[0].0, d[0].1) by {
        assert d[0] in d;
      }
      assert Filter(d, keep) == [d[0]] + rest;
      assert [d[0]] + rest == d;
    }
  }

  lemma {:induction false} FilterKeepsNone<K(!new), V(!new)>(d: Dict<K, V>, keep: (K, V) -> bool)
    requires forall e :: e in d ==> !keep(e.0, e.1)
    ensures Filter(d, keep) == []
  {
    if |d| > 0 {
      var rest := d[1..];
      assert forall e :: e in rest ==> e in d;
      FilterKeepsNone(rest, keep);
      assert !keep(d[0].0, d[0].1) by {
        assert d[0] in d;
      }
    }
  }

  /** A later cleanup removes at least what an earlier one did. */
  lemma CleanupMonotone(l: Ledger, early: real, late: real, e: (TxId, Pending))
    requires early <= late
    requires e in Cleanup(l, late)
    ensures e in Cleanup(l, early)
  {
  }

  /** The five-minute boundary: an entry exactly 300 s old stays, one a moment older goes. */
  lemma CleanupBoundary(id: TxId, p: Pending)
    requires p.timestamp == 1000.0
    ensures (id, p) in Cleanup([(id, p)], 1300.0)
    ensures Cleanup([(id, p)], 1300.5) == []
  {
    assert (id, p) in [(id, p)];
  }

  predicate Matches(p: Pending, ca: Address, kind: TxKind)
  {
    p.ca == ca && p.kind == kind
  }

  /** A confirmation for `ca`: every entry with that address and kind goes, whatever its key. */
  function Confirm(l: Ledger, ca: Address, kind: TxKind): (r: Ledger)
    ensures forall e :: e in r <==> e in l && !Matches(e.1, ca, kind)
    ensures Consistent(l) ==> Consistent(r)
  {
    Filter(l, (id: TxId, p: Pending) => !Matches(p, ca, kind))
  }

  /** A second confirmation of the same contract and kind finds nothing left to remove. */
  lemma ConfirmIdempotent(l: Ledger, ca: Address, kind: TxKind)
    ensures Confirm(Confirm(l, ca, kind), ca, kind) == Confirm(l, ca, kind)
  {
    FilterKeepsAll(Confirm(l, ca, kind), (id: TxId, p: Pending) => !Matches(p, ca, kind));
  }

  /** When every pending entry is for `ca` and `kind`, one confirmation empties the ledger. */
  lemma ConfirmClearsAll(l: Ledger, ca: Address, kind: TxKind)
    requires forall e :: e in l ==> Matches(e.1, ca, kind)
    ensures Confirm(l, ca, kind) == []
  {
    FilterKeepsNone(l, (id: TxId, p: Pending) => !Matches(p, ca, kind));
  }

  /** Index of the entry `sorted(..., key=timestamp, reverse=True)[0]` picks, searching from `i`. */
  function NewestFrom(l: Ledger, i: nat, best: nat): (r: nat)
    requires best < i <= |l|
    requires forall j :: 0 <= j < i ==> l[j].1.timestamp <= l[best].1.timestamp
    requires forall j :: 0 <= j < best ==> l[j].1.timestamp < l[best].1.timestamp
    ensures r < |l|
    ensures forall j :: 0 <= j < |l| ==> l[j].1.timestamp <= l[r].1.timestamp
    ensures forall j :: 0 <= j < r ==> l[j].1.timestamp < l[r].1.timestamp
    decreases |l| - i
  {
    if i == |l| then best
    else if l[i].1.timestamp > l[best].1.timestamp then NewestFrom(l, i + 1, i)
    else NewestFrom(l, i + 1, best)
  }

  /**
   * The most recent entry; the sort is stable, so among equal timestamps the
   * one inserted first wins.
   */
  function Newest(l: Ledger): (r: nat)
    requires |l| > 0
    ensures r < |l|
    ensures forall j :: 0 <= j < |l| ==> l[j].1.timestamp <= l[r].1.timestamp
    ensures forall j :: 0 <= j < r ==> l[j].1.timestamp < l[r].1.timestamp
  {
    NewestFrom(l, 1, 0)
  }

  /** What a failure notice did to the ledger. */
  datatype FailOutcome =
    | NothingPending
    | Retried(replaced: TxId, next: Pending)
    | Abandoned(dropped: TxId, entry: Pending)

  datatype Failed = Failed(ledger: Ledger, outcome: FailOutcome)

  predicate CanRetry(p: Pending)
  {
    p.retryCount < p.maxRetries - 1
  }

  /** The replacement attempt: same trade, one more retry, stamped now, no exit reason. */
  function NextAttempt(p: Pending, now: real): Pending
  {
    Pending(p.ca, p.kind, p.user, now, p.retryCount + 1, p.maxRetries, None)
  }

  /** The entry a failure is blamed on: newest by timestamp, first inserted among ties. */
  ghost predicate BlamedEntry(l: Ledger, id: TxId, p: Pending)
  {
    && (id, p) in l
    && (forall e :: e in l ==> e.1.timestamp <= p.timestamp)
    && (forall j, k :: 0 <= j < k < |l| && l[k] == (id, p) ==> l[j].1.timestamp < p.timestamp)
  }

  /**
   * The failure handler as the code is evidently meant to work: the blamed
   * entry is replaced by its next attempt while the budget allows, and
   * dropped otherwise. The old key is deleted before the new one is written,
   * so the replacement survives even when both fall in the same second.
   */
  function Fail(l: Ledger, now: real): (r: Failed)
    ensures |l| == 0 <==> r.outcome.NothingPending?
    ensures r.outcome.NothingPending? ==> r.ledger == l
    ensures r.outcome.Retried? ==>
              var p := l[Newest(l)].1;
              && BlamedEntry(l, r.outcome.replaced, p)
              && CanRetry(p)
              && r.outcome.next == NextAttempt(p, now)
              && (forall e :: e in r.ledger <==> (|| e == (KeyAt(p.kind, p.ca, now), r.outcome.next)
                                                  || (e in l && e.0 != r.outcome.replaced && e.0 != KeyAt(p.kind, p.ca, now))))
    ensures r.outcome.Abandoned? ==>
              && BlamedEntry(l, r.outcome.dropped, r.outcome.entry)
              && !CanRetry(r.outcome.entry)
              && (forall e :: e in r.ledger <==> e in l && e.0 != r.outcome.dropped)
    ensures Consistent(l) ==> Consistent(r.ledger)
  {
    if |l| == 0 then Failed(l, NothingPending)
    else
      var i := Newest(l);
      var (id, p) := l[i];
      assert l[i] in l;
      if CanRetry(p) then
        var next := NextAttempt(p, now);
        Failed(Put(Remove(l, id), KeyAt(p.kind, p.ca, now), next), Retried(id, next))
      else
        Failed(Remove(l, id), Abandoned(id, p))
  }

  /**
   * The failure handler exactly as app.py writes it: the replacement is
   * stored first and the old key deleted afterwards.
   */
  function FailAsWritten(l: Ledger, now: real): (r: Failed)
    ensures r.outcome == Fail(l, now).outcome
  {
    if |l| == 0 then Failed(l, NothingPending)
    else
      var (id, p) := l[Newest(l)];
      if CanRetry(p) then
        var next := NextAttempt(p, now);
        Failed(Remove(Put(l, KeyAt(p.kind, p.ca, now), next), id), Retried(id, next))
      else
        Failed(Remove(l, id), Abandoned(id, p))
  }

  /** Unless the retry lands in the same second as the attempt it replaces, both orders agree. */
  lemma FailAgreesOffCollision(l: Ledger, now: real)
    requires |l| > 0
    requires l[Newest(l)].0 != KeyAt(l[Newest(l)].1.kind, l[Newest(l)].1.ca, now)
    ensures FailAsWritten(l, now) == Fail(l, now)
  {
    var (id, p) := l[Newest(l)];
    if CanRetry(p) {
      PutRemoveCommute(l, KeyAt(p.kind, p.ca, now), NextAttempt(p, now), id);
    }
  }

  /**
   * The collision the as-written order suffers: a buy sent at 100.2 s fails
   * at 100.7 s; the handler re-sends /buy, yet the ledger ends up empty, so
   * the retry is never tracked and a further failure is not blamed on it.
   * The corrected handler keeps the replacement.
   */
  lemma SameSecondRetryVanishes(ca: Address, user: UserId)
    ensures var l: Ledger := [(TxId(Buy, ca, 100), Pending(ca, Buy, user, 100.2, 0, 3, None))];
            && FailAsWritten(l, 100.7).outcome.Retried?
            && FailAsWritten(l, 100.7).ledger == []
            && (TxId(Buy, ca, 100), Pending(ca, Buy, user, 100.7, 1, 3, None)) in Fail(l, 100.7).ledger
  {
    var l: Ledger := [(TxId(Buy, ca, 100), Pending(ca, Buy, user, 100.2, 0, 3, None))];
    assert Trunc(100.7) == 100;
    assert Newest(l) == 0;
  }

  /** A budget of at most one attempt means the first failure abandons the trade. */
  lemma SingleAttemptAbandons(l: Ledger, now: real)
    requires |l| > 0 && l[Newest(l)].1.maxRetries <= 1 && l[Newest(l)].1.retryCount >= 0
    ensures Fail(l, now).outcome.Abandoned?
    ensures l[Newest(l)] !in Fail(l, now).ledger
  {
  }

  /**
   * Retries never reach the budget: in a consistent ledger every entry is a
   * first attempt or has `retryCount < maxRetries`, and a failure keeps it so.
   */
  lemma RetriesStayBelowBudget(l: Ledger, now: real)
    requires Consistent(l)
    ensures forall e :: e in Fail(l, now).ledger ==> e.1.retryCount == 0 || e.1.retryCount < e.1.maxRetries
  {
  }
}

=== FILE: positions.dfy ===
/**
 * The position map, `BSCBot.price_map` (app.py): one monitored holding per
 * contract, the take-profit / stop-loss exit rule, and the bounded
 * price-sampling and balance-checking loops that feed it.
 */
module Positions {
  import opened Wrappers
  import opened Dict
  import opened Ledger

  /** A buy price is only ever recorded when it is truthy, so it is never zero. */
  type Price = r: real | r != 0.0 witness 1.0

  datatype Position = Position(buyPrice: Price, buyTime: real, takeProfit: real, stopLoss: real,
                               user: UserId, balanceConfirmed: bool, balanceNotified: bool)

  type Positions = Dict<Address, Position>

  /** Python truthiness of a price sample: present and nonzero. */
  predicate Truthy(p: Option<real>)
  {
    p.Some? && p.value != 0.0
  }

  /** Percentage change from the buy price. */
  function Gain(buy: Price, current: real): real
  {
    (current - buy) / buy * 100.0
  }

  /**
   * The exit rule of the monitoring tick: take profit at or above the target
   * gain, otherwise stop loss at or below the negated loss limit, otherwise
   * nothing; a missing or zero price never triggers.
   */
  function Decide(pos: Position, current: Option<real>): (d: Option<ExitReason>)
    ensures !Truthy(current) ==> d.None?
    ensures d == Some(TakeProfit) <==> Truthy(current) && Gain(pos.buyPrice, current.value) >= pos.takeProfit
    ensures d == Some(StopLoss) <==>
              && Truthy(current)
              && Gain(pos.buyPrice, current.value) < pos.takeProfit
              && Gain(pos.buyPrice, current.value) <= -pos.stopLoss
  {
    if !Truthy(current) then None
    else
      var gain := Gain(pos.buyPrice, current.value);
      if gain >= pos.takeProfit then Some(TakeProfit)
      else if gain <= -pos.stopLoss then Some(StopLoss)
      else None
  }

  /**
   * For a positive buy price the rule is a pair of price levels: sell for
   * profit at `buy * (1 + tp/100)` or above, for loss at `buy * (1 - sl/100)`
   * or below (when the two overlap, profit wins).
   */
  lemma ExitPriceLevels(pos: Position, current: real)
    requires pos.buyPrice > 0.0 && current != 0.0
    ensures (Decide(pos, Some(current)) == Some(TakeProfit)) <==>
              current >= pos.buyPrice * (1.0 + pos.takeProfit / 100.0)
    ensures (Decide(pos, Some(current)) == Some(StopLoss)) <==>
              (current < pos.buyPrice * (1.0 + pos.takeProfit / 100.0)
               && current <= pos.buyPrice * (1.0 - pos.stopLoss / 100.0))
  {
    var b: real := pos.buyPrice;
    var g := Gain(pos.buyPrice, current);
    assert g == (current - b) * 100.0 / b;
    GainBelow(b, current, pos.takeProfit);
    GainAbove(b, current, -pos.stopLoss);
  }

  lemma GainBelow(b: real, current: real, t: real)
    requires b > 0.0
    ensures (current - b) / b * 100.0 >= t <==> current >= b * (1.0 + t / 100.0)
  {
    var g := (current - b) / b * 100.0;
    assert g * b == (current - b) * 100.0;
    assert b * (1.0 + t / 100.0) == b + b * t / 100.0;
    if g >= t {
      assert g * b >= t * b;
    } else {
      assert g * b < t * b;
    }
  }

  lemma GainAbove(b: real, current: real, t: real)
    requires b > 0.0
    ensures (current - b) / b * 100.0 <= t <==> current <= b * (1.0 + t / 100.0)
  {
    var g := (current - b) / b * 100.0;
    assert g * b == (current - b) * 100.0;
    assert b * (1.0 + t / 100.0) == b + b * t / 100.0;
    if g <= t {
      assert g * b <= t * b;
    } else {
      assert g * b > t * b;
    }
  }

  /** With a positive buy price, a price that takes profit keeps doing so as it rises. */
  lemma TakeProfitMonotone(pos: Position, low: real, high: real)
    requires pos.buyPrice > 0.0 && low != 0.0 && high != 0.0 && low <= high
    requires Decide(pos, Some(low)) == Some(TakeProfit)
    ensures Decide(pos, Some(high)) == Some(TakeProfit)
  {
    ExitPriceLevels(pos, low);
    ExitPriceLevels(pos, high);
  }

  /** Buy at 100 with a 50% target and a 20% limit: 150 takes profit, 79 stops loss, 120 holds. */
  lemma ExitExamples(user: UserId)
    ensures var pos := Position(100.0, 0.0, 50.0, 20.0, user, false, false);
            && Decide(pos, Some(150.0)) == Some(TakeProfit)
            && Decide(pos, Some(79.0)) == Some(StopLoss)
            && Decide(pos, Some(120.0)).None?
            && Decide(pos, Some(0.0)).None?
            && Decide(pos, None).None?
  {
  }

  /** Price fetch attempts made right after a buy. */
  const PriceAttempts: nat := 3

  /**
   * The retry loop after a buy: the first truthy sample among attempts
   * `i..2` is the buy price; if none is truthy there is none.
   */
  function SampleFrom(sample: nat -> Option<real>, i: nat): (r: Option<Price>)
    requires i <= PriceAttempts
    ensures r.None? <==> forall j :: i <= j < PriceAttempts ==> !Truthy(sample(j))
    ensures r.Some? ==> exists j :: i <= j < PriceAttempts && sample(j) == Some(r.value as real)
                                    && forall k :: i <= k < j ==> !Truthy(sample(k))
    decreases PriceAttempts - i
  {
    if i == PriceAttempts then None
    else if Truthy(sample(i)) then Some(sample(i).value)
    else SampleFrom(sample, i + 1)
  }

  /** Balance checks made after a confirmation or on a tick. */
  const BalanceAttempts: nat := 3

  /** The buy-time loop breaks on the first attempt that sees the token. */
  function SeenFrom(balance: nat -> bool, i: nat): (r: bool)
    requires i <= BalanceAttempts
    ensures r <==> exists j :: i <= j < BalanceAttempts && balance(j)
    decreases BalanceAttempts - i
  {
    if i == BalanceAttempts then false
    else if balance(i) then true
    else SeenFrom(balance, i + 1)
  }

  /** The sell-time and tick loops break on the first attempt that sees no balance. */
  function HeldFrom(balance: nat -> bool, i: nat): (r: bool)
    requires i <= BalanceAttempts
    ensures r <==> forall j :: i <= j < BalanceAttempts ==> balance(j)
    decreases BalanceAttempts - i
  {
    if i == BalanceAttempts then true
    else if !balance(i) then false
    else HeldFrom(balance, i + 1)
  }

  /** A new position: no balance confirmed, nobody warned yet; an older one for `ca` is overwritten. */
  function Track(m: Positions, ca: Address, price: Price, now: real, takeProfit: real,
                 stopLoss: real, user: UserId): (r: Positions)
    ensures Get(r, ca) == Some(Position(price, now, takeProfit, stopLoss, user, false, false))
    ensures forall c :: c != ca ==> Get(r, c) == Get(m, c)
  {
    Put(m, ca, Position(price, now, takeProfit, stopLoss, user, false, false))
  }

  /**
   * Buy confirmation with a wallet configured: the position for `ca`, if
   * any, is marked confirmed when one of three checks sees the token; nothing
   * else changes, and a confirmation already recorded stays.
   */
  function MarkBalance(m: Positions, ca: Address, wallet: string, balance: nat -> bool): (r: Positions)
    ensures forall c :: c != ca ==> Get(r, c) == Get(m, c)
    ensures Get(r, ca).Some? <==> Get(m, ca).Some?
    ensures Get(m, ca).Some? ==>
              Get(r, ca) == Some(Get(m, ca).value.(balanceConfirmed :=
                                   Get(m, ca).value.balanceConfirmed || (wallet != "" && SeenFrom(balance, 0))))
    ensures |r| == |m|
  {
    match Get(m, ca)
    case None => m
    case Some(pos) =>
      if wallet != "" && SeenFrom(balance, 0) then Put(m, ca, pos.(balanceConfirmed := true)) else m
  }

  /**
   * Sell confirmation: monitoring of `ca` stops when no wallet is configured
   * or when any of three checks sees no balance; if all three still see the
   * token the position is kept. Other positions are untouched.
   */
  function CloseOnSell(m: Positions, ca: Address, wallet: string, balance: nat -> bool): (r: Positions)
    ensures forall c :: c != ca ==> Get(r, c) == Get(m, c)
    ensures Get(r, ca).None? <==> Get(m, ca).None? || wallet == "" || exists j :: 0 <= j < BalanceAttempts && !balance(j)
    ensures Get(r, ca).Some? ==> Get(r, ca) == Get(m, ca)
  {
    if Get(m, ca).None? then m
    else if wallet != "" && HeldFrom(balance, 0) then m
    else Remove(m, ca)
  }

  /** Marking twice is marking once: a confirmation already recorded is written again unchanged. */
  lemma MarkBalanceIdempotent(m: Positions, ca: Address, wallet: string, balance: nat -> bool)
    ensures MarkBalance(MarkBalance(m, ca, wallet, balance), ca, wallet, balance) == MarkBalance(m, ca, wallet, balance)
  {
    var m1 := MarkBalance(m, ca, wallet, balance);
    if Get(m, ca).Some? && wallet != "" && SeenFrom(balance, 0) {
      PutPresent(m1, ca, Get(m1, ca).value);
    }
  }

  /** Closing twice is closing once: a dropped position stays dropped, a kept one stays kept. */
  lemma CloseOnSellIdempotent(m: Positions, ca: Address, wallet: string, balance: nat -> bool)
    ensures CloseOnSell(CloseOnSell(m, ca, wallet, balance), ca, wallet, balance) == CloseOnSell(m, ca, wallet, balance)
  {
  }
}

=== FILE: reconnect.dfy ===
/**
 * The reconnect loop of `BSCBot.start` (app.py): each session ends in a
 * disconnect, a network error or some other error; network errors are
 * retried with capped exponential backoff up to a fixed budget, any other
 * error stops the bot, and a disconnect simply reconnects.
 */
module Reconnect {
  /** Network errors tolerated over the bot's lifetime; the count is never reset. */
  const MaxAttempts: nat := 5

  /** The backoff cap, in seconds. */
  const MaxWait: nat := 30

  datatype SessionEnd = Disconnected | NetworkError | OtherError

  datatype Exit = Running | Exhausted | Crashed

  function Pow2(n: nat): (r: nat)
    ensures r >= 1
  {
    if n == 0 then 1 else 2 * Pow2(n - 1)
  }

  /** The wait after the `n`-th network error: `min(30, 2**n)` seconds. */
  function Backoff(n: nat): (r: nat)
    ensures r <= MaxWait && r <= Pow2(n)
    ensures r == MaxWait || r == Pow2(n)
  {
    if Pow2(n) < MaxWait then Pow2(n) else MaxWait
  }

  /** Waits only grow, and from the fifth on they sit at the cap. */
  lemma {:induction false} BackoffMonotone(m: nat, n: nat)
    requires m <= n
    ensures Backoff(m) <= Backoff(n)
    ensures n >= 5 ==> Backoff(n) == MaxWait
    decreases n
  {
    if m < n {
      BackoffMonotone(m, n - 1);
      assert Pow2(n) == 2 * Pow2(n - 1);
    }
    if n >= 5 {
      Pow2AtLeast32(n);
    }
  }

  lemma {:induction false} Pow2AtLeast32(n: nat)
    requires n >= 5
    ensures Pow2(n) >= 32
    decreases n
  {
    if n > 5 {
      Pow2AtLeast32(n - 1);
    } else {
      assert Pow2(5) == 2 * Pow2(4) == 4 * Pow2(3) == 8 * Pow2(2) == 16 * Pow2(1) == 32;
    }
  }

  /** The whole schedule of a bot that exhausts its budget. */
  lemma BackoffSchedule()
    ensures [Backoff(1), Backoff(2), Backoff(3), Backoff(4), Backoff(5)] == [2, 4, 8, 16, 30]
  {
    assert Pow2(1) == 2;
    assert Pow2(2) == 4;
    assert Pow2(3) == 8;
    assert Pow2(4) == 16;
    assert Pow2(5) == 32;
  }

  function Count(ends: seq<SessionEnd>, x: SessionEnd): (r: nat)
    ensures r <= |ends|
  {
    if ends == [] then 0 else (if ends[0] == x then 1 else 0) + Count(ends[1..], x)
  }

  lemma CountSnoc(ends: seq<SessionEnd>, e: SessionEnd, x: SessionEnd)
    ensures Count(ends + [e], x) == Count(ends, x) + (if e == x then 1 else 0)
  {
    if ends != [] {
      assert (ends + [e])[1..] == ends[1..] + [e];
    }
  }

  /**
   * `start`, fed the way each session ends, in order. It returns the waits
   * slept, why it stopped, and how many sessions it used; `Running` means
   * the sessions given ran out while the bot was still going.
   */
  method Start(ends: seq<SessionEnd>) returns (waits: seq<nat>, exit: Exit, used: nat)
    ensures used <= |ends|
    ensures |waits| == Count(ends[..used], NetworkError)
    ensures forall k :: 0 <= k < |waits| ==> waits[k] == Backoff(k + 1)
    ensures exit == Exhausted <==> |waits| == MaxAttempts
    ensures |waits| <= MaxAttempts
    ensures exit == Crashed <==> 0 < used && ends[used - 1] == OtherError
    ensures forall k :: 0 <= k < used - 1 ==> ends[k] != OtherError
    ensures exit != Running ==> 0 < used && ends[used - 1] != Disconnected
    ensures exit == Running ==> used == |ends|
  {
    var retries: nat := 0;
    waits := [];
    used := 0;
    exit := Running;
    while retries < MaxAttempts && used < |ends|
      invariant used <= |ends|
      invariant retries == |waits| == Count(ends[..used], NetworkError) <= MaxAttempts
      invariant forall k :: 0 <= k < |waits| ==> waits[k] == Backoff(k + 1)
      invariant forall k :: 0 <= k < used ==> ends[k] != OtherError
      invariant 0 < used && retries == MaxAttempts ==> ends[used - 1] == NetworkError
      decreases |ends| - used
    {
      var e := ends[used];
      assert ends[..used + 1] == ends[..used] + [e];
      CountSnoc(ends[..used], e, NetworkError);
      used := used + 1;
      match e {
        case Disconnected =>
        case NetworkError =>
          retries := retries + 1;
          waits := waits + [Backoff(retries)];
        case OtherError =>
          exit := Crashed;
          return;
      }
    }
    if retries >= MaxAttempts {
      exit := Exhausted;
    }
  }

  /** A bot that keeps losing its network sleeps 2, 4, 8, 16 and 30 seconds, then gives up. */
  method FiveNetworkErrors() returns (waits: seq<nat>, exit: Exit)
    ensures waits == [2, 4, 8, 16, 30] && exit == Exhausted
  {
    var ends := [NetworkError, Disconnected, NetworkError, NetworkError, NetworkError, NetworkError, NetworkError];
    assert Count(ends, NetworkError) == 6;
    assert ends[..|ends|] == ends;
    var used;
    waits, exit, used := Start(ends);
    BackoffSchedule();
  }
}

=== FILE: replies.dfy ===
/**
 * The reply classifier of the bot-reply handler (app.py): keyword
 * containment over a fixed bilingual vocabulary, checked in the handler's
 * if/elif order — buy success, then failure, then sell success.
 */
module Replies {
  import opened Text

  datatype Signal = BuyConfirmed | TradeFailed | SellConfirmed | Unrecognized

  predicate BuyWords(text: string)
  {
    || Contains(text, "已成功买入")
    || Contains(AsciiLower(text), "successfully bought")
    || (Contains(text, "交易成功") && Contains(text, "买入"))
  }

  predicate FailWords(text: string)
  {
    Contains(text, "链上交易失败") || Contains(text, "滑点不够")
  }

  predicate SellWords(text: string)
  {
    || Contains(text, "已成功卖出")
    || Contains(AsciiLower(text), "successfully sold")
    || (Contains(text, "交易成功") && Contains(text, "卖出"))
  }

  /** Each reply gets exactly one kind; an earlier vocabulary shadows the later ones. */
  function Classify(text: string): (r: Signal)
    ensures r == BuyConfirmed <==> BuyWords(text)
    ensures r == TradeFailed <==> !BuyWords(text) && FailWords(text)
    ensures r == SellConfirmed <==> !BuyWords(text) && !FailWords(text) && SellWords(text)
    ensures r == Unrecognized <==> !BuyWords(text) && !FailWords(text) && !SellWords(text)
  {
    if BuyWords(text) then BuyConfirmed
    else if FailWords(text) then TradeFailed
    else if SellWords(text) then SellConfirmed
    else Unrecognized
  }

  /** A reply mentioning both buying and selling next to "交易成功" counts as a buy. */
  lemma MixedSuccessIsBuy()
    ensures Classify("交易成功 买入 卖出") == BuyConfirmed
  {
    var t := "交易成功 买入 卖出";
    assert OccursAt(t, "交易成功", 0);
    assert OccursAt(t, "买入", 5);
    ContainsAt(t, "交易成功", 0);
    ContainsAt(t, "买入", 5);
  }

  /** A failure phrase outranks a sell-success phrase in the same reply. */
  lemma FailureOutranksSell()
    ensures Classify("已成功卖出 滑点不够") == TradeFailed
  {
    var t := "已成功卖出 滑点不够";
    assert OccursAt(t, "滑点不够", 6);
    ContainsAt(t, "滑点不够", 6);
    NoBuyWordsInSellFailure();
  }

  lemma NoBuyWordsInSellFailure()
    ensures !BuyWords("已成功卖出 滑点不够")
  {
    var t := "已成功卖出 滑点不够";
    AbsentChar(t, "已成功买入", 3);
    AbsentChar(t, "买入", 0);
    NoAsciiInSellFailure();
    AbsentChar(AsciiLower(t), "successfully bought", 0);
  }

  lemma NoAsciiInSellFailure()
    ensures 's' !in AsciiLower("已成功卖出 滑点不够")
  {
    var t := "已成功卖出 滑点不够";
    var low := AsciiLower(t);
    forall j | 0 <= j < |low| ensures low[j] != 's' {
      assert t[j] == ' ' || t[j] > 'z';
    }
  }

  /** The slippage notice alone is a failure. */
  lemma SlippageIsFailure()
    ensures Classify("滑点不够") == TradeFailed
  {
    var t := "滑点不够";
    assert OccursAt(t, "滑点不够", 0);
    ContainsAt(t, "滑点不够", 0);
    assert !BuyWords(t) by {
      assert !Contains(t, "交易成功") by {
        assert !OccursAt(t, "交易成功", 0);
      }
    }
  }

  /** Every Chinese phrase of the three vocabularies is free of ASCII letters. */
  lemma ChinesePhrasesCaseFree()
    ensures CaseFree("已成功买入") && CaseFree("交易成功") && CaseFree("买入")
    ensures CaseFree("链上交易失败") && CaseFree("滑点不够")
    ensures CaseFree("已成功卖出") && CaseFree("卖出")
  {
  }

  /**
   * The classification depends on a reply only up to ASCII letter case: the
   * English phrases are looked up in the lowered text and the Chinese ones
   * have no letters to lower.
   */
  lemma ClassifyIgnoresCase(t: string, u: string)
    requires AsciiLower(t) == AsciiLower(u)
    ensures Classify(t) == Classify(u)
  {
    ChinesePhrasesCaseFree();
    SameCaseFreePhrases(t, u, "已成功买入");
    SameCaseFreePhrases(t, u, "交易成功");
    SameCaseFreePhrases(t, u, "买入");
    SameCaseFreePhrases(t, u, "链上交易失败");
    SameCaseFreePhrases(t, u, "滑点不够");
    SameCaseFreePhrases(t, u, "已成功卖出");
    SameCaseFreePhrases(t, u, "卖出");
  }

  /** The English buy confirmation, in any letter case and anywhere in a reply, makes it a buy. */
  lemma EnglishBuyAnyCase(a: string, w: string, b: string)
    requires AsciiLower(w) == "successfully bought"
    ensures Classify(a + w + b) == BuyConfirmed
  {
    var t := a + w + b;
    var low := AsciiLower(t);
    forall j | 0 <= j < |w| ensures low[|a| + j] == AsciiLower(w)[j] {
      assert t[|a| + j] == w[j];
    }
    assert low[|a|..|a| + |w|] == AsciiLower(w);
    ContainsAt(low, "successfully bought", |a|);
  }

  /** The Chinese buy confirmation anywhere in a reply makes it a buy, whatever else it says. */
  lemma ChineseBuyAnywhere(a: string, b: string)
    ensures Classify(a + "已成功买入" + b) == BuyConfirmed
  {
    ContainsInside(a, "已成功买入", b);
  }

  /** A reply holding a failure phrase is never read as a sale nor ignored: only a buy phrase outranks it. */
  lemma FailurePhraseAnywhere(a: string, b: string)
    ensures Classify(a + "滑点不够" + b) in {BuyConfirmed, TradeFailed}
    ensures Classify(a + "链上交易失败" + b) in {BuyConfirmed, TradeFailed}
  {
    ContainsInside(a, "滑点不够", b);
    ContainsInside(a, "链上交易失败", b);
  }
}

=== FILE: text.dfy ===
/**
 * The string primitives the bot's Python code relies on: `str.isspace`,
 * `str.strip`, `str.startswith`, the `in` substring test and `str.lower`
 * restricted to ASCII letters.
 */
module Text {
  import opened Wrappers

  /** Python's `str.isspace()`; the `\s` class of `re` and `str.strip()` use the same set. */
  predicate IsSpace(c: char)
  {
    || ('\t' <= c <= '\r')
    || ('\U{1C}' <= c <= '\U{1F}')
    || c == ' ' || c == '\U{85}' || c == '\U{A0}' || c == '\U{1680}'
    || ('\U{2000}' <= c <= '\U{200A}')
    || c == '\U{2028}' || c == '\U{2029}' || c == '\U{202F}' || c == '\U{205F}' || c == '\U{3000}'
  }

  predicate IsHexDigit(c: char)
  {
    '0' <= c <= '9' || 'a' <= c <= 'f' || 'A' <= c <= 'F'
  }

  /** The first non-whitespace index at or after `i`, or `|s|`. */
  function SkipFrom(s: string, i: nat): (n: nat)
    requires i <= |s|
    ensures i <= n <= |s|
    ensures forall k :: i <= k < n ==> IsSpace(s[k])
    ensures n < |s| ==> !IsSpace(s[n])
    decreases |s| - i
  {
    if i < |s| && IsSpace(s[i]) then SkipFrom(s, i + 1) else i
  }

  /** Scanning down from `j` to `lo`: the index just past the last non-whitespace, or `lo`. */
  function BackFrom(s: string, lo: nat, j: nat): (n: nat)
    requires lo <= j <= |s|
    ensures lo <= n <= j
    ensures forall k :: n <= k < j ==> IsSpace(s[k])
    ensures lo < n ==> !IsSpace(s[n - 1])
    decreases j
  {
    if lo < j && IsSpace(s[j - 1]) then BackFrom(s, lo, j - 1) else j
  }

  /** Where `str.strip()` cuts `s`: the result is `s[StripStart(s)..StripEnd(s)]`. */
  function StripStart(s: string): (a: nat)
    ensures a <= |s|
  {
    SkipFrom(s, 0)
  }

  function StripEnd(s: string): (b: nat)
    ensures StripStart(s) <= b <= |s|
  {
    BackFrom(s, StripStart(s), |s|)
  }

  /** `s.strip()`: only whitespace is cut away, only from the two ends, and all of it. */
  function Strip(s: string): (r: string)
    ensures r == s[StripStart(s)..StripEnd(s)]
    ensures forall k :: 0 <= k < StripStart(s) ==> IsSpace(s[k])
    ensures forall k :: StripEnd(s) <= k < |s| ==> IsSpace(s[k])
    ensures |r| > 0 ==> !IsSpace(r[0]) && !IsSpace(r[|r| - 1])
  {
    var a, b := StripStart(s), StripEnd(s);
    assert a < b ==> a < |s| && !IsSpace(s[a]) && !IsSpace(s[b - 1]);
    s[a..b]
  }

  /** A stretch of `s` that begins and ends with non-whitespace is kept whole by `strip`. */
  lemma {:induction false} StripKeepsWindow(s: string, i: nat, n: nat)
    requires 0 < n && i + n <= |s|
    requires !IsSpace(s[i]) && !IsSpace(s[i + n - 1])
    ensures StripStart(s) <= i && i + n <= StripEnd(s)
    ensures Strip(s)[i - StripStart(s)..i - StripStart(s) + n] == s[i..i + n]
  {
    var a, b := StripStart(s), StripEnd(s);
    assert a <= i && i + n <= b;
    var w := s[a..b][i - a..i - a + n];
    var v := s[i..i + n];
    forall k | 0 <= k < n ensures w[k] == v[k] {
      assert w[k] == s[a..b][i - a + k] == s[i + k];
    }
    assert w == v;
  }

  predicate StartsWith(s: string, prefix: string)
  {
    |prefix| <= |s| && s[..|prefix|] == prefix
  }

  predicate OccursAt(s: string, k: string, i: int)
  {
    0 <= i && i + |k| <= |s| && s[i..i + |k|] == k
  }

  /** Leftmost occurrence of `k` in `s` at or after `from`, as `s.find(k, from)`. */
  function IndexOfFrom(s: string, k: string, from: nat): (r: Option<nat>)
    ensures r.Some? ==> from <= r.value && OccursAt(s, k, r.value)
    ensures r.Some? ==> forall j :: from <= j < r.value ==> !OccursAt(s, k, j)
    ensures r.None? ==> forall j :: from <= j ==> !OccursAt(s, k, j)
    decreases |s| - from
  {
    if from + |k| > |s| then None
    else if OccursAt(s, k, from) then Some(from)
    else IndexOfFrom(s, k, from + 1)
  }

  function IndexOf(s: string, k: string): Option<nat>
  {
    IndexOfFrom(s, k, 0)
  }

  /** Python's `k in s`. */
  predicate Contains(s: string, k: string)
  {
    IndexOf(s, k).Some?
  }

  lemma ContainsAt(s: string, k: string, i: nat)
    requires OccursAt(s, k, i)
    ensures Contains(s, k)
  {
  }

  /** A phrase placed anywhere in a text is found in it. */
  lemma ContainsInside(a: string, k: string, b: string)
    ensures Contains(a + k + b, k)
  {
    assert (a + k + b)[|a|..|a| + |k|] == k;
    ContainsAt(a + k + b, k, |a|);
  }

  /** A string cannot hold `k` if it lacks one of `k`'s characters. */
  lemma AbsentChar(s: string, k: string, j: nat)
    requires j < |k| && k[j] !in s
    ensures !Contains(s, k)
  {
    forall i | 0 <= i && i + |k| <= |s| ensures !OccursAt(s, k, i) {
      assert s[i..i + |k|][j] == s[i + j];
    }
  }

  predicate IsAsciiLetter(c: char)
  {
    'A' <= c <= 'Z' || 'a' <= c <= 'z'
  }

  /** A phrase that reads the same in any letter case: it has no ASCII letter. */
  predicate CaseFree(k: string)
  {
    forall j :: 0 <= j < |k| ==> !IsAsciiLetter(k[j])
  }

  /** An occurrence is a character-by-character match. */
  lemma OccursAtChars(s: string, k: string, i: int)
    requires 0 <= i && i + |k| <= |s|
    ensures OccursAt(s, k, i) <==> forall j :: 0 <= j < |k| ==> s[i + j] == k[j]
  {
    if forall j :: 0 <= j < |k| ==> s[i + j] == k[j] {
      assert forall j :: 0 <= j < |k| ==> s[i..i + |k|][j] == k[j];
    }
  }

  /** Lowering ASCII letters neither creates nor destroys an occurrence of a case-free phrase. */
  lemma {:induction false} ContainsIgnoresCase(s: string, k: string)
    requires CaseFree(k)
    ensures Contains(s, k) <==> Contains(AsciiLower(s), k)
  {
    var low := AsciiLower(s);
    forall i | 0 <= i && i + |k| <= |s| ensures OccursAt(s, k, i) <==> OccursAt(low, k, i) {
      OccursAtChars(s, k, i);
      OccursAtChars(low, k, i);
      forall j | 0 <= j < |k| ensures s[i + j] == k[j] <==> low[i + j] == k[j] {
        assert !IsAsciiLetter(k[j]);
      }
    }
    if Contains(s, k) {
      ContainsAt(low, k, IndexOf(s, k).value);
    }
    if Contains(low, k) {
      ContainsAt(s, k, IndexOf(low, k).value);
    }
  }

  /** Two texts that differ only in ASCII letter case hold the same case-free phrases. */
  lemma SameCaseFreePhrases(t: string, u: string, k: string)
    requires AsciiLower(t) == AsciiLower(u) && CaseFree(k)
    ensures Contains(t, k) <==> Contains(u, k)
  {
    ContainsIgnoresCase(t, k);
    ContainsIgnoresCase(u, k);
  }

  function LowerChar(c: char): char
  {
    if 'A' <= c <= 'Z' then (c as int + 32) as char else c
  }

  /** `s.lower()` on ASCII letters; every other character is left as it is. */
  function AsciiLower(s: string): (r: string)
    ensures |r| == |s|
    ensures forall i :: 0 <= i < |s| ==> r[i] == LowerChar(s[i])
  {
    seq(|s|, i requires 0 <= i < |s| => LowerChar(s[i]))
  }
}

=== FILE: wrappers.dfy ===
/** The optional value the bot's Python code expresses with `None`. */
module Wrappers {

  datatype Option<+T> = None | Some(value: T)
}
